=== FILE: README.md ===
# Logentries asynchronous logger: a Dafny model

This project models the sequential logic of `LogentriesAsyncLogger`, the delivery
engine of the Logentries .NET client. It covers:

- the producer side: `AddLine` with its bounded, drop-oldest queue of 32768 trimmed
  lines and its lazy, one-time worker start;
- `LoadCredentials`: legacy-then-current configuration keys, token mode and HTTP PUT
  mode;
- the worker `Run`:
  - the line prefix built once per run from `LogID`, `UseHostName` and `HostName`;
  - line normalisation (CR LF and LF become U+2028) and framing;
  - the write-and-flush loop that retries the same payload after a reconnect;
- `OpenConnection`'s HTTP PUT request line;
- `ReopenConnection`'s capped doubling backoff with jitter.

The logger is an immutable `LoggerState` record threaded through pure functions. The
modules are:

- `Wrappers`: `Option` stands for C# `null`.
- `Text`: .NET string primitives over `seq<char>`: `Char.IsWhiteSpace`,
  `IsNullOrWhiteSpace`, `TrimEnd`, white-space trimming, ordinal `Replace`.
- `Constants`: the class's constants.
- `Guid`: `GetIsValidGuid`, with `Guid.TryParse` refined to the 8-4-4-4-12 hexadecimal
  form.
- `Credentials`: `LoadCredentials`.
- `Prefix`: host-name validation and the prefix.
- `Framing`: normalisation, frames, and a parser for the receiving side.
- `Connection`: the request line and its parser, the backoff and `ReopenConnection`.
- `AsyncLogger`: the state, `AddLine` and the queue.
- `Worker`: the worker's `Run`.

The network transport is a finite script of outcomes (`true` = success), consumed in
order by every open attempt and every write-and-flush attempt. The configuration is a
`map<string, string>` in which an absent key reads as null. The random jitter is an
input bounded by a precondition.

## Where the code does something other than what one might expect

All paths and line numbers in this section refer to
`src/Zyborg.Logentries/LogentriesAsyncLogger.cs`. The model follows the code in
each of these places:

- Blank host name: the comment at lines 207-208 says the host name is taken from the
  environment.
  - Line 215 assigns the plain literal `"HostName={System.Environment.MachineName} "`.
    It has no `$`, so nothing is interpolated.
  - That literal ends up in every prefix, and the `catch` that would switch host
    names off cannot be reached (`Prefix.ResolveHostName`).
- Repeating `LoadCredentials` (lines 459-502): one might expect a second call to
  return what the first one did.
  - The model proves this for token mode, and for HTTP PUT mode except in one case.
  - That case:
    - a location is already set;
    - the account key is not usable;
    - the configuration holds a valid account key but no location.
  - There the first call adopts the key at line 490 and fails at line 501. The second
    call finds key and location in place at lines 479-482 and succeeds
    (`Credentials.LoadCredentialsIdempotent`).
- When credentials are checked: one might expect them to be checked once, at start-up.
  Lines 550-559 call `LoadCredentials` on every `AddLine` until the worker has started.
- The HTTP PUT request line (lines 343-349) is not sent once per logger. It is
  written by `OpenConnection` after every successful connect, so it is written again
  after every reconnect.
- Adopting a configured token or account key: one might expect the value adopted
  to be the GUID that was validated. `GetIsValidGuid` (line 517) accepts a value
  with surrounding white space, because `Guid.TryParse` trims it. Lines 472 and 490
  then store the configured string as it stands. A key such as `" <guid>\n"` thus
  puts a blank and a line feed into the request line at lines 345-346
  (`Worker.PaddedAccountKeyInRequestLine`). A padded token likewise ends up in every
  token-mode frame.
- Backoff: one might expect the delay to carry over from one reconnect to the next.
  `rootDelay` is a local of `ReopenConnection` (line 362), so it restarts at 100 on
  every call. The first sleep of a call uses the doubled value, 200.

## Model

| member | source | states |
|---|---|---|
| AsyncLogger.Enqueue | src/Zyborg.Logentries/LogentriesAsyncLogger.cs:574-580 | Below capacity the entry is appended. At capacity exactly the oldest entry is dropped, then the entry is appended. Either way the result is the newest 32768 offered entries, in order. |
| AsyncLogger.AddLine | src/Zyborg.Logentries/LogentriesAsyncLogger.cs:547-581 | The stored entry is the trimmed line, enqueued at the tail, and the queue stays within capacity. The worker is running afterwards iff it already was, DataHub mode is on, or credentials loaded. A start outside DataHub mode leaves usable credentials. `Thread.Start` is called at most once. Credentials change only through `LoadCredentials`, and only while the worker is not running and DataHub mode is off. No other property changes. |
| AsyncLogger.AddLinesKeepsNewest | src/Zyborg.Logentries/LogentriesAsyncLogger.cs:572-580 | After any number of `AddLine` calls, the queue is the newest `QUEUE_SIZE` entries among the old ones and the trimmed new lines, in the order offered. |
| AsyncLogger.WorkerStartedAtMostOnce | src/Zyborg.Logentries/LogentriesAsyncLogger.cs:550-567 | Over any sequence of calls: the worker is started at most once; once started it stays started with the same credentials; the mode flags never change; the queue stays within capacity. Outside DataHub mode, a start implies usable credentials. |
| AsyncLogger.FullQueueDropsOldest | src/Zyborg.Logentries/LogentriesAsyncLogger.cs:575-580 | A full queue [L1..L32768] plus L32769 gives [L2..L32769]. |
| AsyncLogger.NewLogger | src/Zyborg.Logentries/LogentriesAsyncLogger.cs:125-137 | A new logger has an empty queue and a worker that is not running. |
| AsyncLogger.TrimLine | src/Zyborg.Logentries/LogentriesAsyncLogger.cs:572 | The stored form of a line is a prefix of it that does not end in CR or LF. Only CR and LF characters are removed. |
| AsyncLogger.TrimLines | src/Zyborg.Logentries/LogentriesAsyncLogger.cs:572 | Trimming a batch of lines trims each line on its own and keeps their number and order. |
| Text.TrimEnd | src/Zyborg.Logentries/LogentriesAsyncLogger.cs:572 | The result is a prefix of the line that does not end in CR or LF. Everything removed is CR or LF. |
| Credentials.LoadCredentials | src/Zyborg.Logentries/LogentriesAsyncLogger.cs:459-502 | In token mode it succeeds iff the token or the configured token (legacy key first) is a valid GUID. In PUT mode it succeeds iff the credentials already held are usable or the configuration supplies a valid key and a non-empty location. Success leaves usable credentials, and usable credentials are never replaced. Token mode changes only the token, and only on success. PUT mode never changes the token, adopts only the configured key, and sets the location only on success. Token mode adopts the configured token on success. PUT mode without usable credentials adopts a valid configured key, and on success the configured location. Without a valid configured key, PUT mode fails and leaves every property as it was. |
| Credentials.LoadCredentialsIdempotent | src/Zyborg.Logentries/LogentriesAsyncLogger.cs:461-501 | A second call on the state the first one left behind returns the same result iff the state is not the one PUT-mode case described above. In that case the first call fails and the second succeeds. |
| Credentials.LegacyFirst | src/Zyborg.Logentries/LogentriesAsyncLogger.cs:466-467 | `GetSetting(legacy) ?? GetSetting(current)`, with `GetSetting` (lines 402-405) reading one key of the configuration. A setting is found iff its legacy key or its current key is present. A present legacy key wins even when its value is empty; the current key is read only when the legacy key is absent. |
| Credentials.LegacyTokenKeyShadowsCurrent | src/Zyborg.Logentries/LogentriesAsyncLogger.cs:466-476 | A present legacy token key hides the current key, even when its value is empty or not a GUID. |
| Credentials.AccountKeyAdoptedWithoutLocation | src/Zyborg.Logentries/LogentriesAsyncLogger.cs:484-501 | In PUT mode a valid configured key is adopted before the location is looked up. With no location configured, the call fails with the key already overwritten. |
| Guid.GetIsValidGuid | src/Zyborg.Logentries/LogentriesAsyncLogger.cs:510-518 | Null and empty strings are rejected. An accepted string holds at least 36 characters and no slash. |
| Guid.ValidGuidShape | src/Zyborg.Logentries/LogentriesAsyncLogger.cs:517 | A GUID in the 8-4-4-4-12 form that `Guid.TryParse` is modelled with, after its surrounding white space is trimmed, is non-empty and contains no slash and no white space. |
| Guid.PaddedGuidAccepted | src/Zyborg.Logentries/LogentriesAsyncLogger.cs:517 | A GUID with a leading blank and a trailing line feed, as read from an environment variable, is still accepted, because `Guid.TryParse` trims surrounding white space. |
| Text.TrimWhiteSpace | src/Zyborg.Logentries/LogentriesAsyncLogger.cs:517 | The trim that `Guid.TryParse` applies first: the result neither starts nor ends with white space, and every character removed is white space. |
| Text.TrimWhiteSpaceInfix | src/Zyborg.Logentries/LogentriesAsyncLogger.cs:517 | The trimmed string is the contiguous part of the input between its leading and trailing white space, which is all that is removed. |
| Text.Replace | src/Zyborg.Logentries/LogentriesAsyncLogger.cs:273 | Replacing a pattern by text no longer than it never lengthens the string, and by text at least as long never shortens it. |
| Framing.Normalise | src/Zyborg.Logentries/LogentriesAsyncLogger.cs:271-274 | A normalised line holds no LF and is no longer than the line. |
| Framing.NormaliseMatchesRef | src/Zyborg.Logentries/LogentriesAsyncLogger.cs:271-274 | Replacing CR LF and then LF agrees with a one-pass reference in which a CR LF pair or a lone LF each becomes one separator. |
| Framing.NormaliseProperties | src/Zyborg.Logentries/LogentriesAsyncLogger.cs:271-274 | After normalisation: no LF is left; each LF becomes exactly one separator, so a CR LF pair gives one separator and not two; a line without LF, lone CR included, is unchanged; normalising twice changes nothing. |
| Framing.FinalLine | src/Zyborg.Logentries/LogentriesAsyncLogger.cs:276-284 | The frame is the prefix (unless the prefix is blank), then the token (in token mode only), then the normalised line, then one LF. |
| Framing.FrameRoundTrip | src/Zyborg.Logentries/LogentriesAsyncLogger.cs:278-284 | Given the lead, a receiver recovers exactly the normalised line from the frame. The frame ends in LF and holds one LF more than its lead. |
| Framing.ParseFrame | src/Zyborg.Logentries/LogentriesAsyncLogger.cs:278-284 | An accepted frame is the lead, then a body without LF, then LF. |
| Framing.TokenFrameOneBreak | src/Zyborg.Logentries/LogentriesAsyncLogger.cs:271-284 | In token mode with no prefix, a line a + LF + b (a without CR or LF, b without LF) is framed as the token, then a, one separator, b and LF. |
| Framing.HelloWorldFrame | src/Zyborg.Logentries/LogentriesAsyncLogger.cs:271-284 | Token T and "hello\nworld", with no prefix, give T + "hello" + U+2028 + "world\n". |
| Prefix.CheckIfHostNameValid | src/Zyborg.Logentries/LogentriesAsyncLogger.cs:504-507 | A host name is valid iff none of its characters is in the forbidden set the slash, backslash, square brackets, double quote, colon, semicolon, vertical bar, angle brackets, plus, equals, comma, question mark, asterisk, space or underscore. |
| Prefix.PlainHostNameValid | src/Zyborg.Logentries/LogentriesAsyncLogger.cs:63-64 | Names made only of letters, digits, dots and dashes are valid. |
| Prefix.ResolveHostName | src/Zyborg.Logentries/LogentriesAsyncLogger.cs:205-242 | Host names stay on iff they were on and the name is blank or valid; when they go off, the name is left as it was. An enabled name is either the placeholder literal (for a blank name) or "HostName=" + h + " " for a valid h. |
| Prefix.LogIdSegment | src/Zyborg.Logentries/LogentriesAsyncLogger.cs:244-247 | The log-identifier segment is present iff the identifier is not blank. It then is the identifier followed by one blank. |
| Prefix.BuildPrefix | src/Zyborg.Logentries/LogentriesAsyncLogger.cs:203-255 | The prefix is "LogID " (when LogID is not blank) followed by the host-name segment (when enabled). "No prefix" holds iff the prefix is empty, iff LogID is blank and host names are off. |
| Prefix.ResolvedHostNameNotValidAgain | src/Zyborg.Logentries/LogentriesAsyncLogger.cs:239 | A stored "HostName=... " holds '=', so a second resolution would switch host names off. The host-name step therefore must not run twice on one logger. |
| Connection.PutHeader | src/Zyborg.Logentries/LogentriesAsyncLogger.cs:343-349 | The request line starts with "PUT /" and ends with an empty line. Its length, which line 348 also uses as the byte count, is that of the key and the location plus 37. |
| Connection.ParseHeader | src/Zyborg.Logentries/LogentriesAsyncLogger.cs:343-349 | An accepted request line is exactly the PUT line for the recovered key and location, and the key contains no slash. |
| Connection.PutHeaderRoundTrip | src/Zyborg.Logentries/LogentriesAsyncLogger.cs:343-349 | A key without a slash and any location are recovered from `PUT /{key}/hosts/{location}/?realtime=1 HTTP/1.1\r\n\r\n`. |
| Connection.PutHeaderRoundTripGuid | src/Zyborg.Logentries/LogentriesAsyncLogger.cs:343-349 | The same holds for every account key that `GetIsValidGuid` accepts. |
| Connection.DelayClosedForm | src/Zyborg.Logentries/LogentriesAsyncLogger.cs:362-379 | After k failed opens the delay is 100·2^k for k ≤ 6 and 10000 after that: 200, 400, …, 6400, 10000, 10000, …. |
| Connection.DelayMonotone | src/Zyborg.Logentries/LogentriesAsyncLogger.cs:362-379 | Within one reopen sequence the delay never decreases, and after the first failure it lies in [200, 10000]. |
| Connection.FirstSuccess | src/Zyborg.Logentries/LogentriesAsyncLogger.cs:363-370 | Returns the index of the first successful open, with all earlier opens failed, or None when every open fails. |
| Connection.ReopenConnection | src/Zyborg.Logentries/LogentriesAsyncLogger.cs:357-394 | Connects iff some open in the script succeeds, after exactly the opens up to and including the first success. One sleep follows each failed open. The k-th delay is the k-th value of the doubling, capped sequence, starting from 100 on each call. Each sleep is delay + draw and lies in [delay, 2·delay). |
| Worker.SendPayload | src/Zyborg.Logentries/LogentriesAsyncLogger.cs:289-318 | A payload that is not written exhausts the transport script. A written payload consumed the final write and, for each reopen, one failed write and at least one open. |
| Worker.SendPayloadRest | src/Zyborg.Logentries/LogentriesAsyncLogger.cs:289-318 | The write loop consumes the transport script from the front. It stops early only when the script runs out. |
| Worker.SendPayloadShape | src/Zyborg.Logentries/LogentriesAsyncLogger.cs:289-318 | A written payload is the last write, after exactly one request line per reopen in PUT mode (none otherwise). An unwritten payload leaves only request lines. |
| Worker.SendPayloadWire | src/Zyborg.Logentries/LogentriesAsyncLogger.cs:289-318 | The payload is written successfully exactly once when the loop ends with it written, and never otherwise. The wire holds 1 + (number of reopens in PUT mode) writes. Every request line is the logger's own. |
| Worker.RequestLinesShape | src/Zyborg.Logentries/LogentriesAsyncLogger.cs:343-349 | n successful reopens write n request lines in PUT mode and none otherwise. They carry no frame. |
| Worker.FailedWriteThenReopen | src/Zyborg.Logentries/LogentriesAsyncLogger.cs:307-314 | A failed write is followed by a reopen and then by the same payload on the rest of the script. |
| Worker.RepeatedFailedWrites | src/Zyborg.Logentries/LogentriesAsyncLogger.cs:289-318 | After n failed writes (each reopen succeeding), the payload is written successfully exactly once, after exactly n reopens. Each reopen writes the request line again in PUT mode. |
| Worker.TwoFailedWrites | src/Zyborg.Logentries/LogentriesAsyncLogger.cs:289-318 | A write that fails twice and succeeds the third time means two reopens and one successful write of the payload. |
| Worker.DeliverAll | src/Zyborg.Logentries/LogentriesAsyncLogger.cs:258-319 | Lines are taken in queue order. Every taken line is written except possibly the last one. A line is left untaken only after such a loss. |
| Worker.DeliverAllStep | src/Zyborg.Logentries/LogentriesAsyncLogger.cs:258-319 | One turn of the loop: when the head line's payload is written, the loop continues with the next line on the rest of the script, one line further on both counts. Otherwise the script has run out and the line in hand is the one lost. |
| Worker.DeliverAllReliable | src/Zyborg.Logentries/LogentriesAsyncLogger.cs:258-319 | Over a transport that never fails, with at least one write per line, every queued line is written. |
| Worker.DeliverAllFrames | src/Zyborg.Logentries/LogentriesAsyncLogger.cs:258-319 | The successfully written frames are those of the oldest queued lines, in queue order, each written successfully exactly once. Every other write is the logger's own request line. |
| Worker.DeliverAllTaken | src/Zyborg.Logentries/LogentriesAsyncLogger.cs:258-318 | Lines are taken only to be sent. When the script runs out, at most the one line in hand is lost. |
| Worker.Run | src/Zyborg.Logentries/LogentriesAsyncLogger.cs:192-327 | No more lines are written than were queued. Request lines appear only in PUT mode, and a PUT run writes one first. The queue loses exactly the taken lines, from its head: the written ones plus at most the one in hand. |
| Worker.RunReliable | src/Zyborg.Logentries/LogentriesAsyncLogger.cs:192-319 | Over a transport that never fails, with one open and one write per queued line, a run writes the frame of every queued line, in queue order, and leaves the queue empty. |
| Worker.RunDeliversInOrder | src/Zyborg.Logentries/LogentriesAsyncLogger.cs:203-319 | Delivery is FIFO: the frames on the wire are those of a prefix of the queue, in order, each framed with the prefix computed once for the run. A run that connects leaves the host-name properties as the prefix step resolved them. |
| Worker.RunFramesParse | src/Zyborg.Logentries/LogentriesAsyncLogger.cs:255-284 | Every frame of a run parses back, against the run's lead, to the normalised queued line it came from. |
| Worker.PaddedAccountKeyInRequestLine | src/Zyborg.Logentries/LogentriesAsyncLogger.cs:487-490 | A configured account key " " + g + LF, with g a GUID, passes validation and is adopted untrimmed. The request line then carries its blank right after "PUT /" and its line feed before "/hosts/". |
| Worker.OfferedLinesDeliveredInOrder | src/Zyborg.Logentries/LogentriesAsyncLogger.cs:547-581 | When the offered lines leave the worker running, lines offered through `AddLine` and then delivered arrive as the frames of the newest 32768 trimmed lines, oldest first. |

## Left out

- Threads, `BlockingCollection`'s blocking `Take`, the cancellation token and
  `interruptWorker`: the model is sequential.
  - The composed `Worker.Run` works on a snapshot of the queue taken after all
    `AddLine` calls.
  - Concurrent first calls to `AddLine` are not modelled.
- The second `TryAdd` failing (the overflow diagnostic): it can fail only under a
  concurrent producer.
- `AreAllQueuesEmpty` and the static `_allQueues` bag: they are wall-clock polling with
  `Thread.Sleep`.
- `LogentriesClient`: its construction, `Connect`, `Write`, `Flush` and
  `CloseConnection`. This is network I/O and its code is not part of this model; each
  attempt is one entry of the transport script.
- The constructor's `IConfiguration` and `BuildDefaultConfiguration`: the configuration
  is a map.
- `GetSetting` on a null configuration: the map is always present.
- `Guid.IsValidGuid`: after trimming surrounding white space, it accepts only the
  36-character 8-4-4-4-12 form. The braced, parenthesised, 32-digit and
  hexadecimal-list forms that `Guid.TryParse` also accepts are left out.
- UTF-8 and ASCII encoding: frames and the request line stay strings of characters.
- Connection.PutHeader: its length counts characters. Line 348 of
  `src/Zyborg.Logentries/LogentriesAsyncLogger.cs` passes `header.Length`, a count of
  UTF-16 code units, as the byte count. The two agree only when the key and the
  location lie inside the Basic Multilingual Plane, and the ASCII encoding at that
  line is exact only for ASCII text.
- `WriteDebugMessages` and `Trace`: no observable effect on delivery.
- `Random` and `Thread.Sleep`:
  - the draws are an input to `Connection.ReopenConnection`, bounded by
    `Random.Next`'s contract;
  - the composed worker does not record sleeps;
  - the exception raised when a sleep is interrupted is not modelled.
- Connection.ReopenConnection: when the script runs out before any open succeeds, it
  returns with `connected` false, whereas the real loop never gives up.
- Partial writes: a failed attempt of the write loop is assumed to leave nothing on
  the wire. In the code, a `Write` that succeeds followed by a `Flush` that throws
  (lines 298-303), or a `Write` that fails part-way, can leave all or part of the
  payload behind before it is sent again. The model's wire records only attempts
  whose `Write` and `Flush` both succeed.
- Exceptions other than `IOException` inside the write loop, and `AddLine(null)`: not
  modelled.
- `ImmediateFlush`, `UseSsl`, `DataHubAddr`, `DataHubPort`, `Debug`, `Version`: they
  only configure the transport or tracing.
- `LogentriesTarget.cs` (the NLog adapter) and `Program.cs` (a console driver): not part
  of this model.

=== FILE: asynclogger.dfy ===
/** The producer side of `LogentriesAsyncLogger`: the logger state, the bounded
    drop-oldest queue and `AddLine` with its lazy, one-time worker start. */
module AsyncLogger {
  import opened Wrappers
  import opened Text
  import opened Constants
  import opened Credentials

  /** The logger object: its queue, whether the worker was started (and how often
      `Thread.Start` was called), the credentials and the configuration flags. */
  datatype LoggerState = LoggerState(
    queue: seq<string>,
    isRunning: bool,
    workerStarts: nat,
    creds: Creds,
    useHttpPut: bool,
    useDataHub: bool,
    useHostName: bool,
    hostName: Option<string>,
    logID: Option<string>)

  /** The queue never exceeds its capacity, and the worker was started exactly when
      the running flag is set. */
  predicate Valid(l: LoggerState) {
    && |l.queue| <= QueueSize
    && l.workerStarts == (if l.isRunning then 1 else 0)
  }

  /** A freshly constructed logger with the given properties. */
  function NewLogger(creds: Creds, useHttpPut: bool, useDataHub: bool,
                     useHostName: bool, hostName: Option<string>, logID: Option<string>): (l: LoggerState)
    ensures Valid(l) && l.queue == [] && !l.isRunning
  {
    LoggerState([], false, 0, creds, useHttpPut, useDataHub, useHostName, hostName, logID)
  }

  /** The stored form of a line: every trailing CR and LF removed. */
  function TrimLine(line: string): (r: string)
    // a prefix of the line that does not end in a line break, cut only at CR and LF
    ensures r <= line
    ensures |r| == 0 || (r[|r| - 1] != '\r' && r[|r| - 1] != '\n')
    ensures forall i :: |r| <= i < |line| ==> line[i] == '\r' || line[i] == '\n'
  {
    TrimEnd(line, TrimChars)
  }

  /** The last `n` elements of `s` (all of them when there are fewer). */
  function LastN<T>(s: seq<T>, n: nat): (r: seq<T>)
    ensures |r| == (if |s| <= n then |s| else n) && r == s[|s| - |r|..]
  {
    if |s| <= n then s else s[|s| - n..]
  }

  /** `TryAdd`, and when the queue is full `Take` of the oldest entry followed by a
      second `TryAdd`, which cannot fail without a concurrent producer. */
  function Enqueue(q: seq<string>, entry: string): (r: seq<string>)
    requires |q| <= QueueSize
    // the newest QueueSize offered entries survive, in their order
    ensures r == LastN(q + [entry], QueueSize)
    // only a full queue loses an entry, and then exactly its oldest one
    ensures |q| < QueueSize ==> r == q + [entry]
    ensures |q| == QueueSize ==> r == q[1..] + [entry]
  {
    if |q| < QueueSize then q + [entry]
    else q[1..] + [entry]
  }

  /** `AddLine`: while the worker is not running, try to load credentials (skipped in
      DataHub mode) and start the worker on success or in DataHub mode; then queue the
      trimmed line. */
  function AddLine(l: LoggerState, config: Config, line: string): (r: LoggerState)
    requires Valid(l)
    ensures Valid(r)
    // the stored entry is the line without trailing line breaks, appended at the tail
    ensures r.queue == Enqueue(l.queue, TrimLine(line))
    // the worker is started at most once, and only with usable credentials or in DataHub mode
    ensures r.isRunning <==> l.isRunning || l.useDataHub || LoadCredentials(l.useHttpPut, l.creds, config).ok
    ensures !l.isRunning && r.isRunning && !l.useDataHub ==> Usable(l.useHttpPut, r.creds)
    ensures r.workerStarts <= 1
    // credentials are consulted only while the worker is not running and DataHub is off
    ensures l.isRunning || l.useDataHub ==> r.creds == l.creds
    ensures !l.isRunning && !l.useDataHub ==> r.creds == LoadCredentials(l.useHttpPut, l.creds, config).creds
    // nothing else changes
    ensures && r.useHttpPut == l.useHttpPut && r.useDataHub == l.useDataHub
            && r.useHostName == l.useHostName && r.hostName == l.hostName && r.logID == l.logID
  {
    var loaded :=
      if l.isRunning then Loaded(false, l.creds)
      else if !l.useDataHub then LoadCredentials(l.useHttpPut, l.creds, config)
      else Loaded(false, l.creds);
    var started := !l.isRunning && (loaded.ok || l.useDataHub);
    var creds := loaded.creds;
    l.(queue := Enqueue(l.queue, TrimLine(line)),
       isRunning := l.isRunning || started,
       workerStarts := l.workerStarts + (if started then 1 else 0),
       creds := creds)
  }

  /** A run of `AddLine` calls, one per line, in order. */
  function AddLines(l: LoggerState, config: Config, lines: seq<string>): LoggerState
    requires Valid(l)
    decreases |lines|
  {
    if |lines| == 0 then l else AddLines(AddLine(l, config, lines[0]), config, lines[1..])
  }

  function TrimLines(lines: seq<string>): (r: seq<string>)
    ensures |r| == |lines|
    ensures forall i :: 0 <= i < |lines| ==> r[i] == TrimLine(lines[i])
  {
    if |lines| == 0 then [] else [TrimLine(lines[0])] + TrimLines(lines[1..])
  }

  lemma LastNAppend<T>(s: seq<T>, t: seq<T>, n: nat)
    ensures LastN(LastN(s, n) + t, n) == LastN(s + t, n)
  {
    var a := LastN(s, n);
    var r1 := LastN(a + t, n);
    var r2 := LastN(s + t, n);
    assert |r1| == |r2|;
    forall i | 0 <= i < |r1|
      ensures r1[i] == r2[i]
    {
      var k := |r1| - i;
      if k <= |t| {
        assert r1[i] == t[|t| - k] == r2[i];
      } else {
        assert r1[i] == a[|a| - (k - |t|)] == s[|s| - (k - |t|)] == r2[i];
      }
    }
  }

  lemma AddLinesCons(l: LoggerState, config: Config, lines: seq<string>)
    requires Valid(l) && |lines| > 0
    ensures AddLines(l, config, lines) == AddLines(AddLine(l, config, lines[0]), config, lines[1..])
  {
  }

  lemma TrimLinesCons(q: seq<string>, lines: seq<string>)
    requires |lines| > 0
    ensures q + TrimLines(lines) == (q + [TrimLine(lines[0])]) + TrimLines(lines[1..])
  {
    ConsAssoc(q, TrimLine(lines[0]), TrimLines(lines[1..]));
  }

  lemma ConsAssoc<T>(q: seq<T>, x: T, t: seq<T>)
    ensures q + ([x] + t) == (q + [x]) + t
  {
  }

  /** Whatever the interleaving of fills and evictions, the queue ends up holding
      the newest `QueueSize` entries among the old ones and the trimmed new lines,
      in the order they were offered. */
  lemma {:induction false} AddLinesKeepsNewest(l: LoggerState, config: Config, lines: seq<string>)
    requires Valid(l)
    ensures AddLines(l, config, lines).queue == LastN(l.queue + TrimLines(lines), QueueSize)
    decreases |lines|
  {
    if |lines| == 0 {
      assert l.queue + TrimLines(lines) == l.queue;
    } else {
      var l1 := AddLine(l, config, lines[0]);
      var head := l.queue + [TrimLine(lines[0])];
      assert Valid(l1) && l1.queue == LastN(head, QueueSize);
      AddLinesCons(l, config, lines);
      AddLinesKeepsNewest(l1, config, lines[1..]);
      LastNAppend(head, TrimLines(lines[1..]), QueueSize);
      TrimLinesCons(l.queue, lines);
    }
  }

  /** However many lines arrive, the worker is started at most once and stays
      started with the credentials it was started with; it is started at all only in
      DataHub mode or once some call has loaded usable credentials. */
  lemma {:induction false} WorkerStartedAtMostOnce(l: LoggerState, config: Config, lines: seq<string>)
    requires Valid(l)
    ensures var r := AddLines(l, config, lines);
            && Valid(r)
            && r.workerStarts <= 1
            && r.useHttpPut == l.useHttpPut && r.useDataHub == l.useDataHub
            && (l.isRunning ==> r.isRunning && r.workerStarts == l.workerStarts && r.creds == l.creds)
            && (!l.isRunning && r.isRunning && !l.useDataHub ==> Usable(l.useHttpPut, r.creds))
    decreases |lines|
  {
    if |lines| > 0 {
      var l1 := AddLine(l, config, lines[0]);
      WorkerStartedAtMostOnce(l1, config, lines[1..]);
    }
  }

  /** A full queue [L1..L32768] and one more line L32769 give [L2..L32769]. */
  lemma FullQueueDropsOldest(l: LoggerState, config: Config, line: string)
    requires Valid(l) && |l.queue| == QueueSize
    requires |line| == 0 || line[|line| - 1] !in TrimChars
    ensures AddLine(l, config, line).queue == l.queue[1..] + [line]
    ensures |AddLine(l, config, line).queue| == QueueSize
  {
  }
}

=== FILE: connection.dfy ===
/** `OpenConnection` and `ReopenConnection`: the HTTP PUT handshake line and the
    reconnect loop with capped doubling backoff and jitter, against a transport
    given as a script of open outcomes (`true` = connected). */
module Connection {
  import opened Wrappers
  import opened Text
  import opened Constants
  import opened Guid

  const PutHead: string := "PUT /"
  const PutHosts: string := "/hosts/"
  const PutTail: string := "/?realtime=1 HTTP/1.1\r\n\r\n"

  /** The request line written right after every successful connect in HTTP PUT
      mode; a null account key or location formats as nothing. */
  function PutHeader(accountKey: Option<string>, location: Option<string>): (r: string)
    // an HTTP PUT request line closed by an empty line; its length, which is also the
    // byte count handed to the stream, is the two fields plus 37 fixed characters
    ensures PutHead <= r && r[|r| - 4..] == "\r\n\r\n"
    ensures |r| == |OrEmpty(accountKey)| + |OrEmpty(location)| + 37
  {
    PutHead + OrEmpty(accountKey) + PutHosts + OrEmpty(location) + PutTail
  }

  /** Index of the first occurrence of `c` in `s`. */
  function IndexOf(s: string, c: char): (r: Option<nat>)
    ensures r.Some? ==> r.value < |s| && s[r.value] == c
                        && forall j :: 0 <= j < r.value ==> s[j] != c
    ensures r.None? ==> forall j :: 0 <= j < |s| ==> s[j] != c
  {
    if |s| == 0 then None
    else if s[0] == c then Some(0)
    else match IndexOf(s[1..], c)
      case None => None
      case Some(k) => Some(k + 1)
  }

  /** The server side of the handshake: recovers account key and location from
      the request line; the key ends at the first slash. */
  function ParseHeader(h: string): (r: Option<(string, string)>)
    ensures r.Some? ==> h == PutHeader(Some(r.value.0), Some(r.value.1))
    ensures r.Some? ==> forall j :: 0 <= j < |r.value.0| ==> r.value.0[j] != '/'
  {
    if |h| >= |PutHead| + |PutTail| && h[..|PutHead|] == PutHead && h[|h| - |PutTail|..] == PutTail then
      var mid := h[|PutHead|..|h| - |PutTail|];
      match IndexOf(mid, '/')
      case None => None
      case Some(k) =>
        if k + |PutHosts| <= |mid| && mid[k..k + |PutHosts|] == PutHosts then
          var key := mid[..k];
          var location := mid[k + |PutHosts|..];
          SplitJoin(h, |PutHead|, |h| - |PutTail|, k, |PutHosts|);
          Some((key, location))
        else None
    else None
  }

  /** Cutting a string at four points and gluing the pieces back gives it again. */
  lemma SplitJoin(h: string, a: nat, b: nat, k: nat, n: nat)
    requires a <= b <= |h| && k + n <= b - a
    ensures var mid := h[a..b];
            h == h[..a] + mid[..k] + mid[k..k + n] + mid[k + n..] + h[b..]
  {
    var mid := h[a..b];
    assert mid == mid[..k] + mid[k..k + n] + mid[k + n..];
    assert h == h[..a] + mid + h[b..];
  }

  /** Handshake round trip: an account key without a slash (every valid GUID) and
      any location are recovered from the request line. */
  lemma PutHeaderRoundTrip(accountKey: string, location: string)
    requires forall j :: 0 <= j < |accountKey| ==> accountKey[j] != '/'
    ensures ParseHeader(PutHeader(Some(accountKey), Some(location))) == Some((accountKey, location))
  {
    var h := PutHeader(Some(accountKey), Some(location));
    var mid := accountKey + PutHosts + location;
    var n := |accountKey|;
    assert h == PutHead + mid + PutTail;
    assert h[..|PutHead|] == PutHead;
    assert h[|PutHead|..|h| - |PutTail|] == mid;
    assert h[|h| - |PutTail|..] == PutTail;
    assert mid[n] == '/';
    forall j | 0 <= j < n
      ensures mid[j] != '/'
    {
      assert mid[j] == accountKey[j];
    }
    var k := IndexOf(mid, '/');
    assert k.Some? && k.value == n;
    assert mid[..n] == accountKey;
    assert mid[n..n + |PutHosts|] == PutHosts;
    assert mid[n + |PutHosts|..] == location;
  }

  /** Every account key `GetIsValidGuid` accepts, surrounding white space included,
      survives the request line. */
  lemma PutHeaderRoundTripGuid(accountKey: string, location: string)
    requires GetIsValidGuid(Some(accountKey))
    ensures ParseHeader(PutHeader(Some(accountKey), Some(location))) == Some((accountKey, location))
  {
    PutHeaderRoundTrip(accountKey, location);
  }

  /** One step of the backoff: double, then cap at `MaxDelay`. */
  function NextDelay(d: int): int {
    if d * 2 > MaxDelay then MaxDelay else d * 2
  }

  /** `rootDelay` after `k` failed opens within one `ReopenConnection` call. */
  function DelayAfter(k: nat): int {
    if k == 0 then MinDelay else NextDelay(DelayAfter(k - 1))
  }

  function Pow2(k: nat): nat {
    if k == 0 then 1 else 2 * Pow2(k - 1)
  }

  /** The delays go 100, 200, 400, ..., 6400 and then stay at 10000. */
  lemma {:induction false} DelayClosedForm(k: nat)
    ensures DelayAfter(k) == if k <= 6 then MinDelay * Pow2(k) else MaxDelay
  {
    if k > 0 {
      DelayClosedForm(k - 1);
    }
  }

  /** Within one reopen sequence the delay never decreases, and after the first
      failure it stays within [200, 10000]. */
  lemma {:induction false} DelayMonotone(k: nat, j: nat)
    requires k <= j
    ensures DelayAfter(k) <= DelayAfter(j)
    ensures 0 < k ==> 2 * MinDelay <= DelayAfter(k) <= MaxDelay
    decreases j
  {
    DelayClosedForm(k);
    DelayClosedForm(j);
    if k <= 6 && j <= 6 && k < j {
      Pow2Monotone(k, j);
    }
    if 0 < k && k <= 6 {
      Pow2Monotone(1, k);
      Pow2Monotone(k, 6);
    }
  }

  lemma {:induction false} Pow2Monotone(k: nat, j: nat)
    requires k <= j
    ensures Pow2(k) <= Pow2(j)
    decreases j
  {
    if k < j {
      Pow2Monotone(k, j - 1);
    }
  }

  /** Index of the first successful open in a script of open outcomes. */
  function FirstSuccess(opens: seq<bool>): (r: Option<nat>)
    ensures r.Some? ==> r.value < |opens| && opens[r.value]
                        && forall j :: 0 <= j < r.value ==> !opens[j]
    ensures r.None? ==> forall j :: 0 <= j < |opens| ==> !opens[j]
  {
    if |opens| == 0 then None
    else if opens[0] then Some(0)
    else match FirstSuccess(opens[1..])
      case None => None
      case Some(k) => Some(k + 1)
  }

  /** `ReopenConnection`: `rootDelay` restarts at `MinDelay` on every call; each failed
      open doubles it (capped at `MaxDelay`) and sleeps `rootDelay + draw` with the
      draw from `Random.Next(rootDelay)`. The loop returns only after a successful
      open; when the script runs out first, `connected` is false (the real loop would
      go on trying). */
  method ReopenConnection(opens: seq<bool>, draws: seq<int>)
    returns (attempts: nat, delays: seq<int>, sleeps: seq<int>, connected: bool)
    requires |draws| >= |opens|
    requires forall k :: 0 <= k < |draws| ==> 0 <= draws[k] < DelayAfter(k + 1)
    ensures connected <==> FirstSuccess(opens).Some?
    ensures connected ==> attempts == FirstSuccess(opens).value + 1
    ensures !connected ==> attempts == |opens|
    ensures |delays| == |sleeps| == (if connected then attempts - 1 else attempts)
    ensures forall k :: 0 <= k < |delays| ==> delays[k] == DelayAfter(k + 1)
    ensures forall k :: 0 <= k < |sleeps| ==> sleeps[k] == delays[k] + draws[k]
    ensures forall k :: 0 <= k < |sleeps| ==> delays[k] <= sleeps[k] < 2 * delays[k]
  {
    var rootDelay := MinDelay;
    attempts, delays, sleeps, connected := 0, [], [], false;
    while attempts < |opens| && !connected
      invariant attempts <= |opens|
      invariant forall j :: 0 <= j < attempts - (if connected then 1 else 0) ==> !opens[j]
      invariant connected ==> 0 < attempts && opens[attempts - 1]
      invariant |delays| == |sleeps| == (if connected then attempts - 1 else attempts)
      invariant rootDelay == DelayAfter(|delays|)
      invariant forall k :: 0 <= k < |delays| ==> delays[k] == DelayAfter(k + 1)
      invariant forall k :: 0 <= k < |sleeps| ==> sleeps[k] == delays[k] + draws[k]
    {
      var success := opens[attempts];
      attempts := attempts + 1;
      if success {
        connected := true;
      } else {
        rootDelay := rootDelay * 2;
        if rootDelay > MaxDelay {
          rootDelay := MaxDelay;
        }
        var waitFor := rootDelay + draws[|sleeps|];
        delays := delays + [rootDelay];
        sleeps := sleeps + [waitFor];
      }
    }
    if !connected {
      assert FirstSuccess(opens).None?;
    }
  }
}

=== FILE: constants.dfy ===
/** The fixed constants of `LogentriesAsyncLogger`. */
module Constants {

  /** Capacity of the ingress queue. */
  const QueueSize: nat := 32768

  /** Lower and upper bound of the reconnect delay, in milliseconds. */
  const MinDelay: int := 100
  const MaxDelay: int := 10000

  /** Legacy and current configuration key names; the legacy name wins when present. */
  const LegacyConfigTokenName: string := "LOGENTRIES_TOKEN"
  const LegacyConfigAccountKeyName: string := "LOGENTRIES_ACCOUNT_KEY"
  const LegacyConfigLocationName: string := "LOGENTRIES_LOCATION"
  const ConfigTokenName: string := "Logentries.Token"
  const ConfigAccountKeyName: string := "Logentries.AccountKey"
  const ConfigLocationName: string := "Logentries.Location"

  /** Characters trimmed from the end of every queued line. */
  const TrimChars: set<char> := {'\r', '\n'}

  /** U+2028 LINE SEPARATOR, which stands in for embedded line breaks on the wire. */
  const LineSeparator: char := '\U{2028}'

  /** The character class of the forbidden-host-name regular expression. */
  const ForbiddenHostNameChars: set<char> :=
    {'/', '\\', '[', ']', '"', ':', ';', '|', '<', '>', '+', '=', ',', '?', '*', ' ', '_'}
}

=== FILE: credentials.dfy ===
/** `LoadCredentials`: validating or adopting the token (token mode) or the
    account key and location (HTTP PUT mode). */
module Credentials {
  import opened Wrappers
  import opened Text
  import opened Constants
  import opened Guid

  /** The configuration source; a key that is absent reads as null. */
  type Config = map<string, string>

  /** The credential properties of the logger, each possibly null. */
  datatype Creds = Creds(token: Option<string>, accountKey: Option<string>, location: Option<string>)

  /** The boolean answer of `LoadCredentials` together with the properties it leaves behind. */
  datatype Loaded = Loaded(ok: bool, creds: Creds)

  /** `GetSetting(legacy) ?? GetSetting(current)`, where `GetSetting` reads one key of
      the configuration: the current name is consulted only when the legacy key is
      absent, not when its value is empty. */
  function LegacyFirst(config: Config, legacy: string, current: string): (r: Option<string>)
    ensures r.Some? <==> legacy in config || current in config
    // a present legacy key wins, even with an empty value
    ensures legacy in config ==> r == Some(config[legacy])
    ensures legacy !in config && current in config ==> r == Some(config[current])
  {
    if legacy in config then Some(config[legacy])
    else if current in config then Some(config[current])
    else None
  }

  function TokenSetting(config: Config): Option<string> {
    LegacyFirst(config, LegacyConfigTokenName, ConfigTokenName)
  }

  function AccountKeySetting(config: Config): Option<string> {
    LegacyFirst(config, LegacyConfigAccountKeyName, ConfigAccountKeyName)
  }

  function LocationSetting(config: Config): Option<string> {
    LegacyFirst(config, LegacyConfigLocationName, ConfigLocationName)
  }

  /** The credentials a sender needs in the given mode. */
  predicate Usable(useHttpPut: bool, c: Creds) {
    if useHttpPut then GetIsValidGuid(c.accountKey) && !IsNullOrEmpty(c.location)
    else GetIsValidGuid(c.token)
  }

  function LoadCredentials(useHttpPut: bool, c: Creds, config: Config): (r: Loaded)
    // success means the credentials left behind are usable, and it happens exactly
    // when they already were or the configuration supplies usable ones
    ensures r.ok ==> Usable(useHttpPut, r.creds)
    ensures !useHttpPut ==>
              (r.ok <==> GetIsValidGuid(c.token) || GetIsValidGuid(TokenSetting(config)))
    ensures useHttpPut ==>
              (r.ok <==> Usable(true, c)
                         || (GetIsValidGuid(AccountKeySetting(config))
                             && !IsNullOrEmpty(LocationSetting(config))))
    // a usable credential is never replaced
    ensures Usable(useHttpPut, c) ==> r == Loaded(true, c)
    // token mode touches only the token, and only on success
    ensures !useHttpPut ==> r.creds.accountKey == c.accountKey && r.creds.location == c.location
    ensures !useHttpPut && !r.ok ==> r.creds == c
    // HTTP PUT mode never touches the token, adopts only a valid key, and sets the
    // location only on success
    ensures useHttpPut ==> r.creds.token == c.token
    ensures r.creds.accountKey != c.accountKey ==> r.creds.accountKey == AccountKeySetting(config)
    ensures r.creds.location != c.location ==> r.ok && r.creds.location == LocationSetting(config)
    // what is adopted is the configured value: the token in token mode, the account
    // key whenever the held credentials are unusable and the configured key is valid,
    // and the location on every success that did not start from usable credentials
    ensures !useHttpPut && !GetIsValidGuid(c.token) && r.ok ==> r.creds.token == TokenSetting(config)
    ensures useHttpPut && !Usable(true, c) && GetIsValidGuid(AccountKeySetting(config)) ==>
              r.creds.accountKey == AccountKeySetting(config)
    ensures useHttpPut && r.ok && !Usable(true, c) ==> r.creds.location == LocationSetting(config)
    // without usable credentials and a valid configured key, HTTP PUT mode fails and
    // leaves every property as it was
    ensures useHttpPut && !Usable(true, c) && !GetIsValidGuid(AccountKeySetting(config)) ==>
              r == Loaded(false, c)
  {
    if !useHttpPut then
      if GetIsValidGuid(c.token) then Loaded(true, c)
      else
        var configToken := TokenSetting(config);
        if !IsNullOrEmpty(configToken) && GetIsValidGuid(configToken) then
          Loaded(true, c.(token := configToken))
        else
          Loaded(false, c)
    else if !IsNullOrEmpty(c.accountKey) && GetIsValidGuid(c.accountKey) && !IsNullOrEmpty(c.location) then
      Loaded(true, c)
    else
      var configAccountKey := AccountKeySetting(config);
      if !IsNullOrEmpty(configAccountKey) && GetIsValidGuid(configAccountKey) then
        var adopted := c.(accountKey := configAccountKey);
        var configLocation := LocationSetting(config);
        if !IsNullOrEmpty(configLocation) then
          Loaded(true, adopted.(location := configLocation))
        else
          Loaded(false, adopted)
      else
        Loaded(false, c)
  }

  /** The one situation in which a second call answers differently: HTTP PUT mode,
      a location already set, no usable account key, and a configuration that has a
      valid account key but no location. The first call adopts the key and fails on
      the missing configured location; the second finds key and location in place. */
  predicate SecondCallDiffers(useHttpPut: bool, c: Creds, config: Config) {
    && useHttpPut
    && !Usable(true, c)
    && !IsNullOrEmpty(c.location)
    && GetIsValidGuid(AccountKeySetting(config))
    && IsNullOrEmpty(LocationSetting(config))
  }

  /** Repeating the call on the state it left behind, with the configuration
      unchanged, gives the same answer and changes nothing more, except in the one
      situation `SecondCallDiffers` names, where the second call succeeds. */
  lemma LoadCredentialsIdempotent(useHttpPut: bool, c: Creds, config: Config)
    ensures var first := LoadCredentials(useHttpPut, c, config);
            var second := LoadCredentials(useHttpPut, first.creds, config);
            && (second == first <==> !SecondCallDiffers(useHttpPut, c, config))
            && (SecondCallDiffers(useHttpPut, c, config) ==>
                  !first.ok && second == Loaded(true, first.creds))
  {
    var first := LoadCredentials(useHttpPut, c, config);
    if useHttpPut && !first.ok && first.creds != c {
      // the key was adopted but no location was found
      assert first.creds == c.(accountKey := AccountKeySetting(config));
      assert GetIsValidGuid(AccountKeySetting(config)) && IsNullOrEmpty(LocationSetting(config));
      if IsNullOrEmpty(c.location) {
        // the second call adopts the same key again and fails on the same location
        assert !Usable(true, first.creds);
        assert first.creds.(accountKey := AccountKeySetting(config)) == first.creds;
      } else {
        assert Usable(true, first.creds);
      }
    }
  }

  /** A present legacy key hides the current key even when its value is empty
      or malformed: the token then comes from nowhere. */
  lemma LegacyTokenKeyShadowsCurrent(c: Creds, config: Config)
    requires !GetIsValidGuid(c.token)
    requires LegacyConfigTokenName in config
    requires !GetIsValidGuid(Some(config[LegacyConfigTokenName]))
    ensures LoadCredentials(false, c, config) == Loaded(false, c)
  {
  }

  /** In HTTP PUT mode the account key is adopted before the location is looked
      up, so a missing location fails the call with the key already overwritten. */
  lemma AccountKeyAdoptedWithoutLocation(c: Creds, config: Config, key: string)
    requires !Usable(true, c)
    requires LegacyConfigAccountKeyName in config && config[LegacyConfigAccountKeyName] == key
    requires GetIsValidGuid(Some(key))
    requires LegacyConfigLocationName !in config && ConfigLocationName !in config
    ensures LoadCredentials(true, c, config) == Loaded(false, c.(accountKey := Some(key)))
  {
  }
}

=== FILE: framing.dfy ===
/** The per-line work of the worker loop: normalising embedded line breaks and
    framing the line with the token and the run's prefix. */
module Framing {
  import opened Wrappers
  import opened Text
  import opened Constants

  /** The separator as a one-character string. */
  const Sep: string := [LineSeparator]

  /** The worker's normalisation: every "\r\n", and then every "\n", replaced by U+2028. */
  function Normalise(line: string): (r: string)
    // one line on the wire: no line feed survives, and the line never grows
    ensures forall i :: 0 <= i < |r| ==> r[i] != '\n'
    ensures |r| <= |line|
  {
    var t := Replace(line, "\r\n", Sep);
    ReplaceCharGone(t, '\n', Sep);
    Replace(t, "\n", Sep)
  }

  /** Reference definition in one pass: a CR LF pair or a lone LF each become one separator;
      every other character, a lone CR included, is kept. */
  function NormaliseRef(s: string): string
    decreases |s|
  {
    if |s| == 0 then s
    else if |s| >= 2 && s[0] == '\r' && s[1] == '\n' then Sep + NormaliseRef(s[2..])
    else if s[0] == '\n' then Sep + NormaliseRef(s[1..])
    else [s[0]] + NormaliseRef(s[1..])
  }

  /** The two successive replacements agree with the one-pass reference. */
  lemma {:induction false} NormaliseMatchesRef(s: string)
    ensures Normalise(s) == NormaliseRef(s)
    decreases |s|
  {
    if |s| == 0 {
    } else if |s| >= 2 && s[0] == '\r' && s[1] == '\n' {
      assert "\r\n" <= s;
      var rest := Replace(s[2..], "\r\n", Sep);
      assert Replace(s, "\r\n", Sep) == Sep + rest;
      ReplaceCharCons(LineSeparator, rest, '\n', Sep);
      NormaliseMatchesRef(s[2..]);
    } else if s[0] == '\n' {
      assert !("\r\n" <= s);
      var rest := Replace(s[1..], "\r\n", Sep);
      assert Replace(s, "\r\n", Sep) == "\n" + rest;
      assert ("\n" + rest)[1..] == rest;
      NormaliseMatchesRef(s[1..]);
    } else {
      assert !("\r\n" <= s);
      var rest := Replace(s[1..], "\r\n", Sep);
      assert Replace(s, "\r\n", Sep) == [s[0]] + rest;
      ReplaceCharCons(s[0], rest, '\n', Sep);
      NormaliseMatchesRef(s[1..]);
    }
  }

  lemma {:induction false} NormaliseRefNoLineFeed(s: string)
    ensures forall i :: 0 <= i < |NormaliseRef(s)| ==> NormaliseRef(s)[i] != '\n'
    decreases |s|
  {
    if |s| == 0 {
    } else if |s| >= 2 && s[0] == '\r' && s[1] == '\n' {
      NormaliseRefNoLineFeed(s[2..]);
      var t := NormaliseRef(s[2..]);
      assert NormaliseRef(s) == Sep + t;
      assert forall i :: 1 <= i < |Sep + t| ==> (Sep + t)[i] == t[i - 1];
    } else {
      NormaliseRefNoLineFeed(s[1..]);
      var t := NormaliseRef(s[1..]);
      var head := if s[0] == '\n' then Sep else [s[0]];
      assert NormaliseRef(s) == head + t;
      assert forall i :: 1 <= i < |head + t| ==> (head + t)[i] == t[i - 1];
    }
  }

  lemma {:induction false} NormaliseRefCount(s: string)
    ensures Count(NormaliseRef(s), LineSeparator) == Count(s, LineSeparator) + Count(s, '\n')
    decreases |s|
  {
    if |s| == 0 {
    } else if |s| >= 2 && s[0] == '\r' && s[1] == '\n' {
      NormaliseRefCount(s[2..]);
      CountAppend(Sep, NormaliseRef(s[2..]), LineSeparator);
      assert s == "\r\n" + s[2..];
      CountAppend("\r\n", s[2..], LineSeparator);
      CountAppend("\r\n", s[2..], '\n');
    } else {
      NormaliseRefCount(s[1..]);
      assert s == [s[0]] + s[1..];
      CountAppend([s[0]], s[1..], LineSeparator);
      CountAppend([s[0]], s[1..], '\n');
      var head := if s[0] == '\n' then Sep else [s[0]];
      CountAppend(head, NormaliseRef(s[1..]), LineSeparator);
    }
  }

  lemma {:induction false} NormaliseRefIdentity(s: string)
    requires forall i :: 0 <= i < |s| ==> s[i] != '\n'
    ensures NormaliseRef(s) == s
    decreases |s|
  {
    if |s| > 0 {
      assert s[1..][0..] == s[1..];
      assert forall i :: 0 <= i < |s[1..]| ==> s[1..][i] == s[i + 1];
      NormaliseRefIdentity(s[1..]);
      assert s == [s[0]] + s[1..];
    }
  }

  /** No line feed is left; each line feed becomes one separator; a line without
      line feeds is left as it is. */
  lemma NormaliseRefProperties(s: string)
    ensures forall i :: 0 <= i < |NormaliseRef(s)| ==> NormaliseRef(s)[i] != '\n'
    ensures Count(NormaliseRef(s), LineSeparator) == Count(s, LineSeparator) + Count(s, '\n')
    ensures (forall i :: 0 <= i < |s| ==> s[i] != '\n') ==> NormaliseRef(s) == s
  {
    NormaliseRefNoLineFeed(s);
    NormaliseRefCount(s);
    if forall i :: 0 <= i < |s| ==> s[i] != '\n' {
      NormaliseRefIdentity(s);
    }
  }

  /** What normalisation guarantees: no line feed is left; each line feed, whether
      part of a CR LF pair or alone, becomes exactly one separator; a line without
      line feeds, lone carriage returns included, is left as it is; and so a second
      normalisation changes nothing. */
  lemma NormaliseProperties(s: string)
    ensures forall i :: 0 <= i < |Normalise(s)| ==> Normalise(s)[i] != '\n'
    ensures Count(Normalise(s), LineSeparator) == Count(s, LineSeparator) + Count(s, '\n')
    ensures (forall i :: 0 <= i < |s| ==> s[i] != '\n') ==> Normalise(s) == s
    ensures Normalise(Normalise(s)) == Normalise(s)
  {
    NormaliseMatchesRef(s);
    NormaliseRefProperties(s);
    NormaliseMatchesRef(Normalise(s));
    NormaliseRefProperties(Normalise(s));
  }

  /** Frames carry the token only in plain token mode, not in HTTP PUT or DataHub mode. */
  predicate TokenMode(useHttpPut: bool, useDataHub: bool) {
    !useHttpPut && !useDataHub
  }

  /** Everything a frame carries before the line itself. */
  function Lead(prefix: string, isPrefixEmpty: bool, tokenMode: bool, token: Option<string>): string {
    (if isPrefixEmpty then "" else prefix) + (if tokenMode then OrEmpty(token) else "")
  }

  /** The outgoing frame built from one queued line, as the worker assembles it:
      token and line, then the terminating line feed, then the prefix in front. */
  function FinalLine(prefix: string, isPrefixEmpty: bool, tokenMode: bool, token: Option<string>,
                     line: string): (f: string)
    ensures f == Lead(prefix, isPrefixEmpty, tokenMode, token) + Normalise(line) + "\n"
  {
    var body := Normalise(line);
    var finalLine := (if tokenMode then OrEmpty(token) + body else body) + "\n";
    if !isPrefixEmpty then prefix + finalLine else finalLine
  }

  /** The receiving side: strips a known lead and the terminating line feed, and
      accepts the frame only if the body between them holds no line feed. */
  function ParseFrame(f: string, lead: string): (r: Option<string>)
    ensures r.Some? ==> f == lead + r.value + "\n"
    ensures r.Some? ==> forall i :: 0 <= i < |r.value| ==> r.value[i] != '\n'
  {
    if lead <= f && |f| > |lead| && f[|f| - 1] == '\n'
       && forall i :: |lead| <= i < |f| - 1 ==> f[i] != '\n'
    then
      var body := f[|lead|..|f| - 1];
      assert f == lead + body + "\n";
      Some(body)
    else
      None
  }

  /** Framing round trip: the receiver recovers exactly the normalised line, and the
      frame holds one line feed more than its lead, the final one. */
  lemma FrameRoundTrip(prefix: string, isPrefixEmpty: bool, tokenMode: bool, token: Option<string>,
                       line: string)
    ensures var lead := Lead(prefix, isPrefixEmpty, tokenMode, token);
            var f := FinalLine(prefix, isPrefixEmpty, tokenMode, token, line);
            && ParseFrame(f, lead) == Some(Normalise(line))
            && f[|f| - 1] == '\n'
            && Count(f, '\n') == Count(lead, '\n') + 1
  {
    var lead := Lead(prefix, isPrefixEmpty, tokenMode, token);
    var body := Normalise(line);
    var f := FinalLine(prefix, isPrefixEmpty, tokenMode, token, line);
    NormaliseProperties(line);
    assert f == lead + body + "\n";
    assert f[|lead|..|f| - 1] == body;
    forall i | |lead| <= i < |f| - 1
      ensures f[i] != '\n'
    {
      assert f[i] == body[i - |lead|];
    }
    CountZero(body, '\n');
    CountAppend(lead, body, '\n');
    CountAppend(lead + body, "\n", '\n');
  }

  /** A single line feed between two line-feed-free pieces becomes one separator,
      provided it is not preceded by a carriage return. */
  lemma {:induction false} NormaliseOneBreak(a: string, b: string)
    requires forall i :: 0 <= i < |a| ==> a[i] != '\n' && a[i] != '\r'
    requires forall i :: 0 <= i < |b| ==> b[i] != '\n'
    ensures Normalise(a + "\n" + b) == a + Sep + b
  {
    NormaliseMatchesRef(a + "\n" + b);
    NormaliseRefConcat(a, b);
  }

  lemma {:induction false} NormaliseRefConcat(a: string, b: string)
    requires forall i :: 0 <= i < |a| ==> a[i] != '\n' && a[i] != '\r'
    requires forall i :: 0 <= i < |b| ==> b[i] != '\n'
    ensures NormaliseRef(a + "\n" + b) == a + Sep + b
    decreases |a|
  {
    var s := a + "\n" + b;
    if |a| == 0 {
      assert s == "\n" + b;
      assert s[0] == '\n' && s[1..] == b;
      assert NormaliseRef(s) == Sep + NormaliseRef(b);
      NormaliseRefIdentity(b);
    } else {
      assert s[0] == a[0];
      assert s[1..] == a[1..] + "\n" + b;
      assert NormaliseRef(s) == [a[0]] + NormaliseRef(s[1..]);
      assert forall i :: 0 <= i < |a[1..]| ==> a[1..][i] == a[i + 1];
      NormaliseRefConcat(a[1..], b);
      assert a == [a[0]] + a[1..];
    }
  }

  /** A token-mode frame without a prefix, for a line with one line feed between two
      pieces that hold no line break. */
  lemma TokenFrameOneBreak(t: string, a: string, b: string)
    requires forall i :: 0 <= i < |a| ==> a[i] != '\n' && a[i] != '\r'
    requires forall i :: 0 <= i < |b| ==> b[i] != '\n'
    ensures FinalLine("", true, TokenMode(false, false), Some(t), a + "\n" + b) == t + a + Sep + b + "\n"
  {
    NormaliseOneBreak(a, b);
    assert Lead("", true, true, Some(t)) == t;
  }

  /** Token T and "hello\nworld" with no prefix give T + "hello" + U+2028 + "world\n". */
  lemma HelloWorldFrame(t: string)
    ensures FinalLine("", true, TokenMode(false, false), Some(t), "hello\nworld")
            == t + "hello\U{2028}world\n"
  {
    TokenFrameOneBreak(t, "hello", "world");
    assert "hello" + "\n" + "world" == "hello\nworld";
    assert t + "hello" + Sep + "world" + "\n" == t + "hello\U{2028}world\n";
  }
}

=== FILE: guid.dfy ===
/** `GetIsValidGuid`, with `Guid.TryParse` refined to the 8-4-4-4-12 hexadecimal form. */
module Guid {
  import opened Wrappers
  import opened Text

  predicate IsHexDigit(c: char) {
    ('0' <= c <= '9') || ('a' <= c <= 'f') || ('A' <= c <= 'F')
  }

  predicate IsDashPosition(i: int) {
    i == 8 || i == 13 || i == 18 || i == 23
  }

  predicate IsValidGuid(s: string) {
    && |s| == 36
    && forall i :: 0 <= i < 36 ==> if IsDashPosition(i) then s[i] == '-' else IsHexDigit(s[i])
  }

  /** `GetIsValidGuid`: null and empty strings are rejected before parsing, and
      `Guid.TryParse` ignores white space around the digits. */
  predicate GetIsValidGuid(s: Option<string>): (v: bool)
    // an accepted string holds at least the 36 characters of the GUID, and no slash
    ensures v ==> s.Some? && |s.value| >= 36
    ensures v ==> forall i :: 0 <= i < |s.value| ==> s.value[i] != '/'
  {
    if IsNullOrEmpty(s) then false
    else
      var t := TrimWhiteSpace(s.value);
      if IsValidGuid(t) then ValidGuidShape(t); true else false
  }

  /** A well-formed 8-4-4-4-12 GUID is non-empty and has no slash and no white space. */
  lemma ValidGuidShape(s: string)
    requires IsValidGuid(s)
    ensures s != ""
    ensures forall i :: 0 <= i < |s| ==> s[i] != '/' && !IsWhiteSpace(s[i])
  {
  }

  /** A GUID read from an environment variable with a leading blank and a trailing
      line feed is accepted, padding included. */
  lemma PaddedGuidAccepted(g: string)
    requires IsValidGuid(g)
    ensures GetIsValidGuid(Some(" " + g + "\n"))
  {
    var s := " " + g + "\n";
    ValidGuidShape(g);
    var e := TrimEndWhiteSpace(s);
    assert e == " " + g by {
      assert s[|s| - 1] == '\n' && s[|s| - 2] == g[35];
      assert |e| == |s| - 1;
      assert s[..|s| - 1] == " " + g;
    }
    var t := TrimStartWhiteSpace(e);
    assert t == g by {
      assert e[0] == ' ' && e[1] == g[0];
      assert |t| == |e| - 1;
      assert e[1..] == g;
    }
    assert TrimWhiteSpace(s) == g;
  }
}

=== FILE: prefix.dfy ===
/** The line prefix the worker computes once per run from `LogID`, `UseHostName`
    and `HostName`, and the host-name validation it relies on. */
module Prefix {
  import opened Wrappers
  import opened Text
  import opened Constants

  /** `CheckIfHostNameValid`: the forbidden-character regular expression matches
      (and the name is rejected) exactly when one forbidden character occurs. */
  function CheckIfHostNameValid(h: string): (valid: bool)
    ensures valid <==> forall i :: 0 <= i < |h| ==> h[i] !in ForbiddenHostNameChars
    decreases |h|
  {
    if |h| == 0 then true
    else h[0] !in ForbiddenHostNameChars && CheckIfHostNameValid(h[1..])
  }

  predicate IsPlainHostChar(c: char) {
    ('a' <= c <= 'z') || ('A' <= c <= 'Z') || ('0' <= c <= '9') || c == '.' || c == '-'
  }

  /** Names made only of letters, digits, dots and dashes are accepted. */
  lemma PlainHostNameValid(h: string)
    requires forall i :: 0 <= i < |h| ==> IsPlainHostChar(h[i])
    ensures CheckIfHostNameValid(h)
  {
  }

  /** What the code stores for a blank host name: the braces are never interpolated,
      so this literal text, not the machine name, ends up in every prefix. */
  const MachineNamePlaceholder: string := "HostName={System.Environment.MachineName} "

  /** `UseHostName` and `HostName` as the host-name step of a run leaves them. */
  datatype HostResolution = HostResolution(useHostName: bool, hostName: Option<string>)

  /** The host-name step of a run. Automatic resolution cannot fail in the code,
      so a blank name always becomes the placeholder; an invalid explicit name
      switches the host-name prefix off; a valid one is wrapped as "HostName=<name> ". */
  function ResolveHostName(useHostName: bool, hostName: Option<string>): (r: HostResolution)
    // the step can only switch the host-name prefix off, and does so exactly for an
    // explicit name with a forbidden character
    ensures r.useHostName <==>
              useHostName && (IsNullOrWhiteSpace(hostName) || CheckIfHostNameValid(hostName.value))
    ensures !r.useHostName ==> r.hostName == hostName
    // an enabled segment names a valid host, or is the placeholder for a blank one
    ensures r.useHostName ==>
              r.hostName.Some?
              && if IsNullOrWhiteSpace(hostName) then r.hostName.value == MachineNamePlaceholder
                 else CheckIfHostNameValid(hostName.value) && r.hostName.value == "HostName=" + hostName.value + " "
  {
    if !useHostName then HostResolution(false, hostName)
    else if IsNullOrWhiteSpace(hostName) then HostResolution(true, Some(MachineNamePlaceholder))
    else if !CheckIfHostNameValid(hostName.value) then HostResolution(false, hostName)
    else HostResolution(true, Some("HostName=" + hostName.value + " "))
  }

  /** "<LogID> " when a log identifier is configured, nothing otherwise. */
  function LogIdSegment(logID: Option<string>): (r: string)
    // present exactly for a non-blank identifier, which it carries followed by one blank
    ensures r == "" <==> IsNullOrWhiteSpace(logID)
    ensures r != "" ==> logID.value <= r && |r| == |logID.value| + 1 && r[|r| - 1] == ' '
  {
    if !IsNullOrWhiteSpace(logID) then logID.value + " " else ""
  }

  /** The prefix of a run and the flag the worker keeps for "no prefix". */
  datatype LinePrefix = LinePrefix(prefix: string, isPrefixEmpty: bool, host: HostResolution)

  /** The prefix step of `Run`: resolve the host name, then concatenate the
      log-identifier segment and the host-name segment. */
  function BuildPrefix(useHostName: bool, hostName: Option<string>, logID: Option<string>): (r: LinePrefix)
    ensures r.host == ResolveHostName(useHostName, hostName)
    // the prefix is the log-identifier segment followed by the host-name segment, if enabled
    ensures r.prefix == LogIdSegment(logID)
                        + (if r.host.useHostName then r.host.hostName.value else "")
    // neither segment is blank, so "no prefix" means exactly that both are absent
    ensures r.isPrefixEmpty <==> r.prefix == ""
    ensures r.isPrefixEmpty <==> IsNullOrWhiteSpace(logID) && !r.host.useHostName
  {
    var host := ResolveHostName(useHostName, hostName);
    var logMessagePrefix := LogIdSegment(logID) + (if host.useHostName then host.hostName.value else "");
    var isPrefixEmpty := IsNullOrWhiteSpace(Some(logMessagePrefix));
    PrefixNotBlank(logID, host, logMessagePrefix);
    LinePrefix(logMessagePrefix, isPrefixEmpty, host)
  }

  lemma PrefixNotBlank(logID: Option<string>, host: HostResolution, prefix: string)
    requires host.useHostName ==> host.hostName.Some? && |host.hostName.value| > 0
                                  && host.hostName.value[0] == 'H'
    requires prefix == LogIdSegment(logID) + (if host.useHostName then host.hostName.value else "")
    ensures IsNullOrWhiteSpace(Some(prefix)) <==> prefix == ""
    ensures prefix == "" <==> IsNullOrWhiteSpace(logID) && !host.useHostName
  {
    var seg := LogIdSegment(logID);
    if !IsNullOrWhiteSpace(logID) {
      var k :| 0 <= k < |logID.value| && !IsWhiteSpace(logID.value[k]);
      assert prefix[k] == logID.value[k];
    } else if host.useHostName {
      assert prefix[0] == 'H';
    }
  }

  /** The host-name step must not run twice on one logger: the host name it leaves
      behind is wrapped in "HostName=... ", which holds the forbidden '=', so a
      second pass would switch the host-name prefix off. */
  lemma ResolvedHostNameNotValidAgain(useHostName: bool, hostName: Option<string>)
    ensures var r := ResolveHostName(useHostName, hostName);
            r.useHostName ==> !ResolveHostName(true, r.hostName).useHostName
  {
    var r := ResolveHostName(useHostName, hostName);
    if r.useHostName {
      assert r.hostName.value[8] == '=';
    }
  }
}

=== FILE: text.dfy ===
/** The handful of .NET string primitives the logger relies on, over `seq<char>`. */
module Text {
  import opened Wrappers

  /** .NET `Char.IsWhiteSpace`: the Unicode separators (Zs, Zl, Zp), the controls
      U+0009..U+000D and U+0085. */
  predicate IsWhiteSpace(c: char) {
    || ('\t' <= c <= '\r')
    || c == ' '
    || c == '\U{0085}'
    || c == '\U{00A0}'
    || c == '\U{1680}'
    || ('\U{2000}' <= c <= '\U{200A}')
    || c == '\U{2028}'
    || c == '\U{2029}'
    || c == '\U{202F}'
    || c == '\U{205F}'
    || c == '\U{3000}'
  }

  /** `string.IsNullOrWhiteSpace` */
  predicate IsNullOrWhiteSpace(s: Option<string>) {
    s.None? || forall i :: 0 <= i < |s.value| ==> IsWhiteSpace(s.value[i])
  }

  /** `string.IsNullOrEmpty` */
  predicate IsNullOrEmpty(s: Option<string>) {
    s.None? || s.value == ""
  }

  /** What C#'s `+` and `String.Format` make of a possibly-null string. */
  function OrEmpty(s: Option<string>): string {
    if s.Some? then s.value else ""
  }

  /** Number of occurrences of `c` in `s`. */
  function Count(s: string, c: char): nat {
    if |s| == 0 then 0 else (if s[0] == c then 1 else 0) + Count(s[1..], c)
  }

  lemma CountAppend(a: string, b: string, c: char)
    ensures Count(a + b, c) == Count(a, c) + Count(b, c)
  {
    if |a| > 0 {
      assert (a + b)[1..] == a[1..] + b;
      CountAppend(a[1..], b, c);
    } else {
      assert a + b == b;
    }
  }

  lemma CountZero(s: string, c: char)
    ensures Count(s, c) == 0 <==> forall i :: 0 <= i < |s| ==> s[i] != c
  {
    if |s| > 0 {
      CountZero(s[1..], c);
      assert forall i :: 1 <= i < |s| ==> s[i] == s[1..][i - 1];
    }
  }

  /** `s.TrimEnd(cs)`: removes every trailing character that belongs to `cs`.
      The three ensures together pin the result down uniquely. */
  function TrimEnd(s: string, cs: set<char>): (r: string)
    ensures r <= s
    ensures |r| == 0 || r[|r| - 1] !in cs
    ensures forall i :: |r| <= i < |s| ==> s[i] in cs
    decreases |s|
  {
    if |s| > 0 && s[|s| - 1] in cs then TrimEnd(s[..|s| - 1], cs) else s
  }

  /** `s.TrimStart()`: removes every leading white-space character. */
  function TrimStartWhiteSpace(s: string): (r: string)
    ensures |r| <= |s| && r == s[|s| - |r|..]
    ensures |r| == 0 || !IsWhiteSpace(r[0])
    ensures forall i :: 0 <= i < |s| - |r| ==> IsWhiteSpace(s[i])
    decreases |s|
  {
    if |s| > 0 && IsWhiteSpace(s[0]) then TrimStartWhiteSpace(s[1..]) else s
  }

  /** `s.TrimEnd()`: removes every trailing white-space character. */
  function TrimEndWhiteSpace(s: string): (r: string)
    ensures r <= s
    ensures |r| == 0 || !IsWhiteSpace(r[|r| - 1])
    ensures forall i :: |r| <= i < |s| ==> IsWhiteSpace(s[i])
    decreases |s|
  {
    if |s| > 0 && IsWhiteSpace(s[|s| - 1]) then TrimEndWhiteSpace(s[..|s| - 1]) else s
  }

  /** `r` sits at offset `k` of `s`, and everything of `s` around it is white space. */
  predicate IsTrimmedInfix(s: string, r: string, k: int) {
    && 0 <= k <= |s| - |r|
    && r == s[k..k + |r|]
    && (forall i :: 0 <= i < k ==> IsWhiteSpace(s[i]))
    && (forall i :: k + |r| <= i < |s| ==> IsWhiteSpace(s[i]))
  }

  /** `s.Trim()`: white space removed at both ends; every character removed is
      white space. */
  function TrimWhiteSpace(s: string): (r: string)
    ensures |r| <= |s|
    ensures |r| == 0 || (!IsWhiteSpace(r[0]) && !IsWhiteSpace(r[|r| - 1]))
    ensures forall i :: 0 <= i < |s| ==> IsWhiteSpace(s[i]) || s[i] in r
  {
    var e := TrimEndWhiteSpace(s);
    var r := TrimStartWhiteSpace(e);
    var k := |e| - |r|;
    forall i | 0 <= i < |s| && !IsWhiteSpace(s[i])
      ensures s[i] in r
    {
      assert i < |e| && s[i] == e[i];
      assert k <= i && e[i] == r[i - k];
    }
    r
  }

  /** Trimming at the front of the trimmed-at-the-end string leaves the tail of
      that string, after white space only. */
  lemma TrimStartOfTrimEnd(s: string)
    ensures var e := TrimEndWhiteSpace(s);
            var r := TrimStartWhiteSpace(e);
            && e == s[..|e|]
            && r == s[|e| - |r|..|e|]
            && (forall i :: 0 <= i < |e| - |r| ==> IsWhiteSpace(s[i]))
            && (forall i :: |e| <= i < |s| ==> IsWhiteSpace(s[i]))
  {
    var e := TrimEndWhiteSpace(s);
    var r := TrimStartWhiteSpace(e);
    assert e == s[..|e|];
    assert r == e[|e| - |r|..];
    forall i | 0 <= i < |e| - |r|
      ensures IsWhiteSpace(s[i])
    {
      assert s[i] == e[i];
    }
  }

  /** The trimmed string is the part of `s` between its leading and its trailing
      white space. */
  lemma TrimWhiteSpaceInfix(s: string)
    ensures exists k :: IsTrimmedInfix(s, TrimWhiteSpace(s), k)
  {
    var e := TrimEndWhiteSpace(s);
    var r := TrimStartWhiteSpace(e);
    assert IsTrimmedInfix(s, r, |e| - |r|) by {
      TrimStartOfTrimEnd(s);
    }
    assert TrimWhiteSpace(s) == r;
  }

  /** Ordinal `s.Replace(pat, rep)`: a left-to-right scan that replaces every
      non-overlapping occurrence of `pat`. */
  function Replace(s: string, pat: string, rep: string): (r: string)
    requires |pat| > 0
    // a replacement no longer than the pattern never lengthens the string, and one
    // at least as long never shortens it
    ensures |rep| <= |pat| ==> |r| <= |s|
    ensures |pat| <= |rep| ==> |s| <= |r|
    decreases |s|
  {
    if |s| == 0 then s
    else if pat <= s then rep + Replace(s[|pat|..], pat, rep)
    else [s[0]] + Replace(s[1..], pat, rep)
  }

  /** Replacing a single character only ever rewrites that character. */
  lemma {:induction false} ReplaceCharCons(c: char, s: string, pat: char, rep: string)
    requires c != pat
    ensures Replace([c] + s, [pat], rep) == [c] + Replace(s, [pat], rep)
  {
    assert ([c] + s)[0] == c;
    assert !([pat] <= [c] + s);
    assert ([c] + s)[1..] == s;
  }

  /** Replacing a character by text free of it leaves no occurrence behind. */
  lemma {:induction false} ReplaceCharGone(s: string, pat: char, rep: string)
    requires forall j :: 0 <= j < |rep| ==> rep[j] != pat
    ensures forall i :: 0 <= i < |Replace(s, [pat], rep)| ==> Replace(s, [pat], rep)[i] != pat
    decreases |s|
  {
    if |s| > 0 {
      ReplaceCharGone(s[1..], pat, rep);
      if [pat] <= s {
        assert s[1..] == s[|[pat]|..];
      }
    }
  }
}

=== FILE: worker.dfy ===
/** The consumer side: the worker's `Run`, which opens the connection, computes the
    line prefix once, and then takes, frames and writes every queued line in order,
    reopening the connection and retrying the same payload whenever a write fails.

    The transport is one script of outcomes, consumed in order by every open attempt
    (connect, plus the request line in HTTP PUT mode) and every write-and-flush
    attempt: `true` is success, `false` an I/O failure. */
module Worker {
  import opened Wrappers
  import opened Framing
  import opened Prefix
  import opened Connection
  import opened AsyncLogger
  import opened Guid

  /** One successful write on the wire: the HTTP PUT request line or one frame. */
  datatype Write = HeaderWrite(header: string) | FrameWrite(frame: string)

  /** The frames on the wire, in order, without the request lines. */
  function Frames(wire: seq<Write>): seq<string> {
    if |wire| == 0 then []
    else (if wire[0].FrameWrite? then [wire[0].frame] else []) + Frames(wire[1..])
  }

  lemma {:induction false} FramesAppend(a: seq<Write>, b: seq<Write>)
    ensures Frames(a + b) == Frames(a) + Frames(b)
    decreases |a|
  {
    if |a| == 0 {
      assert a + b == b;
    } else {
      var head := if a[0].FrameWrite? then [a[0].frame] else [];
      assert (a + b)[0] == a[0];
      assert (a + b)[1..] == a[1..] + b;
      assert Frames(a + b) == head + Frames(a[1..] + b);
      FramesAppend(a[1..], b);
      assert Frames(a) == head + Frames(a[1..]);
    }
  }

  /** Every request line on the wire is the given one. */
  predicate HeadersAre(wire: seq<Write>, header: Option<string>) {
    forall i :: 0 <= i < |wire| && wire[i].HeaderWrite? ==> header == Some(wire[i].header)
  }

  /** What a successful open puts on the wire: the request line in HTTP PUT mode, nothing otherwise. */
  function OpenWrites(header: Option<string>): seq<Write> {
    if header.Some? then [HeaderWrite(header.value)] else []
  }

  /** The request line of the logger's mode, if it has one. */
  function HeaderOf(l: LoggerState): Option<string> {
    if l.useHttpPut then Some(PutHeader(l.creds.accountKey, l.creds.location)) else None
  }

  /** Where the delivery of one payload stands: what reached the wire, the unread
      rest of the script, how often `ReopenConnection` was called, and whether the
      payload was written. */
  datatype Progress = Progress(wire: seq<Write>, rest: seq<bool>, reopens: nat, done: bool)

  lemma HeadersAreAppend(a: seq<Write>, b: seq<Write>, header: Option<string>)
    requires HeadersAre(a, header) && HeadersAre(b, header)
    ensures HeadersAre(a + b, header)
  {
    forall i | 0 <= i < |a + b| && (a + b)[i].HeaderWrite?
      ensures header == Some((a + b)[i].header)
    {
      if i < |a| {
        assert (a + b)[i] == a[i];
      } else {
        assert (a + b)[i] == b[i - |a|];
      }
    }
  }

  /** The write-and-flush loop for one payload: on an I/O failure the connection is
      reopened (until an open succeeds) and the same payload is written again. */
  function SendPayload(frame: string, header: Option<string>, script: seq<bool>): (r: Progress)
    // an undelivered payload exhausts the script; a delivered one consumed the final
    // write and, per reopen, one failed write and at least one open
    ensures !r.done ==> r.rest == []
    ensures r.done ==> |r.rest| + 2 * r.reopens < |script|
    decreases |script|
  {
    if |script| == 0 then Progress([], [], 0, false)
    else if script[0] then Progress([FrameWrite(frame)], script[1..], 0, true)
    else match FirstSuccess(script[1..])
      case None => Progress([], [], 1, false)
      case Some(k) =>
        var again := SendPayload(frame, header, script[k + 2..]);
        Progress(OpenWrites(header) + again.wire, again.rest, again.reopens + 1, again.done)
  }

  /** One retry of the payload loop: a failed write followed by a successful reopen
      after `k` more failed opens. */
  lemma SendPayloadRetry(frame: string, header: Option<string>, script: seq<bool>, k: nat)
    requires |script| > 0 && !script[0] && FirstSuccess(script[1..]) == Some(k)
    ensures var again := SendPayload(frame, header, script[k + 2..]);
            SendPayload(frame, header, script)
            == Progress(OpenWrites(header) + again.wire, again.rest, again.reopens + 1, again.done)
  {
  }

  /** The payload is consumed from the front of the script, which an undelivered
      payload exhausts. */
  lemma {:induction false} SendPayloadRest(frame: string, header: Option<string>, script: seq<bool>)
    ensures var r := SendPayload(frame, header, script);
            && |r.rest| <= |script| && r.rest == script[|script| - |r.rest|..]
            && (!r.done ==> r.rest == [])
    decreases |script|
  {
    if |script| > 0 && !script[0] {
      match FirstSuccess(script[1..])
      case None =>
      case Some(k) =>
        SendPayloadRetry(frame, header, script, k);
        SendPayloadRest(frame, header, script[k + 2..]);
    }
  }

  /** A delivered payload is the last write, after one request line per reopen in
      HTTP PUT mode; an undelivered one leaves only request lines behind. */
  lemma {:induction false} SendPayloadShape(frame: string, header: Option<string>, script: seq<bool>)
    ensures var r := SendPayload(frame, header, script);
            && (r.done ==> r.wire == RequestLines(header, r.reopens) + [FrameWrite(frame)])
            && (!r.done ==> Frames(r.wire) == [] && HeadersAre(r.wire, header))
    decreases |script|
  {
    if |script| > 0 && !script[0] {
      match FirstSuccess(script[1..])
      case None =>
      case Some(k) =>
        var again := SendPayload(frame, header, script[k + 2..]);
        SendPayloadRetry(frame, header, script, k);
        SendPayloadShape(frame, header, script[k + 2..]);
        ShapeAfterReopen(frame, header, again.wire, again.reopens, again.done);
    }
  }

  /** The shape of `SendPayloadShape` survives one more reopen in front. */
  lemma ShapeAfterReopen(frame: string, header: Option<string>, wire: seq<Write>, reopens: nat, done: bool)
    requires done ==> wire == RequestLines(header, reopens) + [FrameWrite(frame)]
    requires !done ==> Frames(wire) == [] && HeadersAre(wire, header)
    ensures done ==> OpenWrites(header) + wire == RequestLines(header, reopens + 1) + [FrameWrite(frame)]
    ensures !done ==> Frames(OpenWrites(header) + wire) == [] && HeadersAre(OpenWrites(header) + wire, header)
  {
    if done {
      assert OpenWrites(header) + (RequestLines(header, reopens) + [FrameWrite(frame)])
             == (OpenWrites(header) + RequestLines(header, reopens)) + [FrameWrite(frame)];
    } else {
      FramesAppend(OpenWrites(header), wire);
      HeadersAreAppend(OpenWrites(header), wire, header);
      if header.Some? {
        assert [HeaderWrite(header.value)][1..] == [];
      }
    }
  }

  /** The payload is written successfully exactly once when it is delivered, as the
      last write, and never otherwise; besides it the wire holds only request lines,
      one per reopen in HTTP PUT mode. */
  lemma SendPayloadWire(frame: string, header: Option<string>, script: seq<bool>)
    ensures var r := SendPayload(frame, header, script);
            && Frames(r.wire) == (if r.done then [frame] else [])
            && (r.done ==> r.wire[|r.wire| - 1] == FrameWrite(frame)
                           && |r.wire| == 1 + (if header.Some? then r.reopens else 0))
            && HeadersAre(r.wire, header)
  {
    var r := SendPayload(frame, header, script);
    SendPayloadShape(frame, header, script);
    if r.done {
      var req := RequestLines(header, r.reopens);
      RequestLinesShape(header, r.reopens);
      FramesAppend(req, [FrameWrite(frame)]);
      HeadersAreAppend(req, [FrameWrite(frame)], header);
      assert [FrameWrite(frame)][1..] == [];
    }
  }

  /** The request lines of `n` reopens: one each in HTTP PUT mode, none otherwise. */
  lemma {:induction false} RequestLinesShape(header: Option<string>, n: nat)
    ensures |RequestLines(header, n)| == (if header.Some? then n else 0)
    ensures Frames(RequestLines(header, n)) == []
    ensures HeadersAre(RequestLines(header, n), header)
  {
    if n > 0 {
      RequestLinesShape(header, n - 1);
      FramesAppend(OpenWrites(header), RequestLines(header, n - 1));
      HeadersAreAppend(OpenWrites(header), RequestLines(header, n - 1), header);
      if header.Some? {
        assert [HeaderWrite(header.value)][1..] == [];
      }
    }
  }

  /** A failed write whose reopen succeeds at the first attempt: one reopen, then
      the same payload again on the rest of the script. */
  lemma FailedWriteThenReopen(frame: string, header: Option<string>, script: seq<bool>)
    ensures var again := SendPayload(frame, header, script);
            SendPayload(frame, header, [false, true] + script)
            == Progress(OpenWrites(header) + again.wire, again.rest, again.reopens + 1, again.done)
  {
    var s := [false, true] + script;
    assert s[1..] == [true] + script && s[2..] == script;
    assert FirstSuccess(s[1..]) == Some(0);
  }

  /** A script of `n` failed writes, each followed by a successful reopen. */
  function FailuresThenSuccess(n: nat): seq<bool> {
    if n == 0 then [true] else [false, true] + FailuresThenSuccess(n - 1)
  }

  /** `n` failed writes in a row: the payload is written successfully exactly once, after exactly
      `n` reopens, each of which writes the request line again in HTTP PUT mode. */
  lemma {:induction false} RepeatedFailedWrites(frame: string, header: Option<string>, n: nat)
    ensures SendPayload(frame, header, FailuresThenSuccess(n))
            == Progress(RequestLines(header, n) + [FrameWrite(frame)], [], n, true)
  {
    if n == 0 {
      assert [true][1..] == [];
    } else {
      RepeatedFailedWrites(frame, header, n - 1);
      OneMoreFailedWrite(frame, header, n);
    }
  }

  /** One more failed write in front adds one reopen and one request line. */
  lemma OneMoreFailedWrite(frame: string, header: Option<string>, n: nat)
    requires n > 0
    requires SendPayload(frame, header, FailuresThenSuccess(n - 1))
             == Progress(RequestLines(header, n - 1) + [FrameWrite(frame)], [], n - 1, true)
    ensures SendPayload(frame, header, FailuresThenSuccess(n))
            == Progress(RequestLines(header, n) + [FrameWrite(frame)], [], n, true)
  {
    var rest := FailuresThenSuccess(n - 1);
    var again := SendPayload(frame, header, rest);
    var w := RequestLines(header, n - 1) + [FrameWrite(frame)];
    assert SendPayload(frame, header, FailuresThenSuccess(n))
           == Progress(OpenWrites(header) + again.wire, again.rest, again.reopens + 1, again.done) by {
      FailedWriteThenReopen(frame, header, rest);
    }
    assert OpenWrites(header) + w == RequestLines(header, n) + [FrameWrite(frame)] by {
      var o, l := OpenWrites(header), RequestLines(header, n - 1);
      assert RequestLines(header, n) == o + l;
      assert (o + l) + [FrameWrite(frame)] == o + (l + [FrameWrite(frame)]);
    }
  }

  /** The request lines of `n` successful reopens. */
  function RequestLines(header: Option<string>, n: nat): seq<Write> {
    if n == 0 then [] else OpenWrites(header) + RequestLines(header, n - 1)
  }

  /** Write fails twice and succeeds the third time: two reopens, one payload on the wire. */
  lemma TwoFailedWrites(frame: string)
    ensures SendPayload(frame, None, [false, true, false, true, true])
            == Progress([FrameWrite(frame)], [], 2, true)
  {
    RepeatedFailedWrites(frame, None, 2);
    assert FailuresThenSuccess(2) == [false, true, false, true, true];
  }

  /** The frames of a sequence of queued lines. */
  function FramesOf(lines: seq<string>, lp: LinePrefix, tokenMode: bool, token: Option<string>): (r: seq<string>)
    ensures |r| == |lines|
    ensures forall i :: 0 <= i < |lines| ==>
              r[i] == FinalLine(lp.prefix, lp.isPrefixEmpty, tokenMode, token, lines[i])
  {
    seq(|lines|, i requires 0 <= i < |lines| => FinalLine(lp.prefix, lp.isPrefixEmpty, tokenMode, token, lines[i]))
  }

  /** How far the worker got through the queue: what reached the wire, how many
      lines were written, and how many were taken from the queue. */
  datatype Delivery = Delivery(wire: seq<Write>, delivered: nat, taken: nat)

  /** The worker loop over the queued lines: take, frame, send; it stops only when
      the transport script runs out, with the line in hand lost. */
  function DeliverAll(lines: seq<string>, lp: LinePrefix, tokenMode: bool, token: Option<string>,
                      header: Option<string>, script: seq<bool>): (r: Delivery)
    // lines are taken in order; every taken line is written, except possibly the last
    // one, which is lost when the script runs out
    ensures r.delivered <= r.taken <= |lines|
    ensures r.taken <= r.delivered + 1
    ensures r.taken == 0 <==> |lines| == 0
    ensures r.taken < |lines| ==> r.delivered < r.taken
    decreases |lines|
  {
    if |lines| == 0 then Delivery([], 0, 0)
    else
      var p := SendPayload(FinalLine(lp.prefix, lp.isPrefixEmpty, tokenMode, token, lines[0]), header, script);
      if !p.done then Delivery(p.wire, 0, 1)
      else
        var d := DeliverAll(lines[1..], lp, tokenMode, token, header, p.rest);
        Delivery(p.wire + d.wire, d.delivered + 1, d.taken + 1)
  }

  /** One turn of the outer loop: the head line is sent; when its payload is written
      the loop goes on with the next line on the rest of the script, and otherwise the
      script has run out and the line in hand is lost. */
  lemma DeliverAllStep(lines: seq<string>, lp: LinePrefix, tokenMode: bool, token: Option<string>,
                       header: Option<string>, script: seq<bool>)
    requires |lines| > 0
    ensures var p := SendPayload(FinalLine(lp.prefix, lp.isPrefixEmpty, tokenMode, token, lines[0]), header, script);
            var d := DeliverAll(lines[1..], lp, tokenMode, token, header, p.rest);
            && (p.done ==> DeliverAll(lines, lp, tokenMode, token, header, script)
                           == Delivery(p.wire + d.wire, d.delivered + 1, d.taken + 1))
            && (!p.done ==> p.rest == [] && DeliverAll(lines, lp, tokenMode, token, header, script)
                                            == Delivery(p.wire, 0, 1))
  {
  }

  /** Over a transport that never fails, with one write per line available, every
      queued line is written. */
  lemma {:induction false} DeliverAllReliable(lines: seq<string>, lp: LinePrefix, tokenMode: bool,
                                              token: Option<string>, header: Option<string>, script: seq<bool>)
    requires |script| >= |lines| && forall i :: 0 <= i < |script| ==> script[i]
    ensures DeliverAll(lines, lp, tokenMode, token, header, script).delivered == |lines|
    decreases |lines|
  {
    if |lines| > 0 {
      var p := SendPayload(FinalLine(lp.prefix, lp.isPrefixEmpty, tokenMode, token, lines[0]), header, script);
      assert p.done && p.rest == script[1..];
      DeliverAllReliable(lines[1..], lp, tokenMode, token, header, script[1..]);
    }
  }

  /** The frames of one queued line followed by those of the rest. */
  lemma FramesOfCons(lines: seq<string>, n: nat, lp: LinePrefix, tokenMode: bool, token: Option<string>)
    requires 0 < |lines| && n < |lines|
    ensures FramesOf(lines[..n + 1], lp, tokenMode, token)
            == [FinalLine(lp.prefix, lp.isPrefixEmpty, tokenMode, token, lines[0])]
               + FramesOf(lines[1..][..n], lp, tokenMode, token)
  {
    assert lines[..n + 1] == [lines[0]] + lines[1..][..n];
  }

  /** Lines are written in queue order, each successfully exactly once, with nothing
      in between but request lines. */
  lemma DeliverAllFrames(lines: seq<string>, lp: LinePrefix, tokenMode: bool,
                         token: Option<string>, header: Option<string>, script: seq<bool>)
    ensures var r := DeliverAll(lines, lp, tokenMode, token, header, script);
            && r.delivered <= |lines|
            && Frames(r.wire) == FramesOf(lines[..r.delivered], lp, tokenMode, token)
            && HeadersAre(r.wire, header)
  {
    DeliverAllInOrder(lines, lp, tokenMode, token, header, script);
    DeliverAllHeaders(lines, lp, tokenMode, token, header, script);
  }

  lemma {:induction false} DeliverAllInOrder(lines: seq<string>, lp: LinePrefix, tokenMode: bool,
                                             token: Option<string>, header: Option<string>, script: seq<bool>)
    ensures var r := DeliverAll(lines, lp, tokenMode, token, header, script);
            Frames(r.wire) == FramesOf(lines[..r.delivered], lp, tokenMode, token)
    decreases |lines|
  {
    if |lines| > 0 {
      var f := FinalLine(lp.prefix, lp.isPrefixEmpty, tokenMode, token, lines[0]);
      var p := SendPayload(f, header, script);
      SendPayloadWire(f, header, script);
      if p.done {
        var d := DeliverAll(lines[1..], lp, tokenMode, token, header, p.rest);
        DeliverAllInOrder(lines[1..], lp, tokenMode, token, header, p.rest);
        FramesAppend(p.wire, d.wire);
        FramesOfCons(lines, d.delivered, lp, tokenMode, token);
      } else {
        assert FramesOf(lines[..0], lp, tokenMode, token) == [];
      }
    } else {
      assert FramesOf(lines[..0], lp, tokenMode, token) == [];
    }
  }

  lemma {:induction false} DeliverAllHeaders(lines: seq<string>, lp: LinePrefix, tokenMode: bool,
                                             token: Option<string>, header: Option<string>, script: seq<bool>)
    ensures HeadersAre(DeliverAll(lines, lp, tokenMode, token, header, script).wire, header)
    decreases |lines|
  {
    if |lines| > 0 {
      var f := FinalLine(lp.prefix, lp.isPrefixEmpty, tokenMode, token, lines[0]);
      var p := SendPayload(f, header, script);
      SendPayloadWire(f, header, script);
      if p.done {
        var d := DeliverAll(lines[1..], lp, tokenMode, token, header, p.rest);
        DeliverAllHeaders(lines[1..], lp, tokenMode, token, header, p.rest);
        HeadersAreAppend(p.wire, d.wire, header);
      }
    }
  }

  /** A line is taken only to be sent, so the worker stops short with at most the one
      line in hand undelivered. */
  lemma {:induction false} DeliverAllTaken(lines: seq<string>, lp: LinePrefix, tokenMode: bool,
                                           token: Option<string>, header: Option<string>, script: seq<bool>)
    ensures var r := DeliverAll(lines, lp, tokenMode, token, header, script);
            && r.delivered <= |lines|
            && r.taken == (if r.delivered < |lines| then r.delivered + 1 else r.delivered)
    decreases |lines|
  {
    if |lines| > 0 {
      var f := FinalLine(lp.prefix, lp.isPrefixEmpty, tokenMode, token, lines[0]);
      var p := SendPayload(f, header, script);
      if p.done {
        DeliverAllTaken(lines[1..], lp, tokenMode, token, header, p.rest);
      }
    }
  }

  /** What a run leaves behind: the wire, the number of lines written, and the logger
      with the taken lines gone and the host-name properties as the prefix step left them. */
  datatype RunResult = RunResult(wire: seq<Write>, delivered: nat, logger: LoggerState)

  /** `Run`: open the connection (retrying until an open succeeds), compute the prefix
      once, then deliver the queued lines. */
  function Run(l: LoggerState, script: seq<bool>): (r: RunResult)
    ensures r.delivered <= |l.queue|
    // request lines appear only in HTTP PUT mode, and the first write of a PUT run is one
    ensures HeadersAre(r.wire, HeaderOf(l))
    ensures l.useHttpPut && |r.wire| > 0 ==> r.wire[0] == HeaderWrite(PutHeader(l.creds.accountKey, l.creds.location))
    // the queue loses exactly the taken lines, from its head
    ensures |r.logger.queue| + r.delivered <= |l.queue| <= |r.logger.queue| + r.delivered + 1
    ensures r.logger.queue == l.queue[|l.queue| - |r.logger.queue|..]
  {
    match FirstSuccess(script)
    case None => RunResult([], 0, l)
    case Some(k) =>
      var lp := BuildPrefix(l.useHostName, l.hostName, l.logID);
      var d := DeliverAll(l.queue, lp, TokenMode(l.useHttpPut, l.useDataHub), l.creds.token,
                          HeaderOf(l), script[k + 1..]);
      DeliverAllHeaders(l.queue, lp, TokenMode(l.useHttpPut, l.useDataHub), l.creds.token,
                        HeaderOf(l), script[k + 1..]);
      OpenThenDeliver(l, d.wire);
      TakenFromHead(l.queue, d.delivered, d.taken);
      RunResult(OpenWrites(HeaderOf(l)) + d.wire, d.delivered,
                l.(queue := l.queue[d.taken..], useHostName := lp.host.useHostName, hostName := lp.host.hostName))
  }

  /** The wire of a run that connected: the opening writes, then the deliveries. */
  lemma OpenThenDeliver(l: LoggerState, wire: seq<Write>)
    requires HeadersAre(wire, HeaderOf(l))
    ensures var all := OpenWrites(HeaderOf(l)) + wire;
            && HeadersAre(all, HeaderOf(l))
            && (l.useHttpPut && |all| > 0 ==> all[0] == HeaderWrite(PutHeader(l.creds.accountKey, l.creds.location)))
  {
    HeadersAreAppend(OpenWrites(HeaderOf(l)), wire, HeaderOf(l));
  }

  /** Removing the taken lines from the head of the queue. */
  lemma TakenFromHead(q: seq<string>, delivered: nat, taken: nat)
    requires delivered <= taken <= |q| && taken <= delivered + 1
    ensures |q[taken..]| + delivered <= |q| <= |q[taken..]| + delivered + 1
    ensures q[taken..] == q[|q| - |q[taken..]|..]
  {
  }

  /** Over a transport that never fails, with one open and one write per queued line
      available, a run writes the frame of every queued line, in queue order, and
      leaves the queue empty. */
  lemma RunReliable(l: LoggerState, script: seq<bool>)
    requires |script| > |l.queue| && forall i :: 0 <= i < |script| ==> script[i]
    ensures var r := Run(l, script);
            var lp := BuildPrefix(l.useHostName, l.hostName, l.logID);
            && r.delivered == |l.queue|
            && r.logger.queue == []
            && Frames(r.wire) == FramesOf(l.queue, lp, TokenMode(l.useHttpPut, l.useDataHub), l.creds.token)
  {
    var lp := BuildPrefix(l.useHostName, l.hostName, l.logID);
    assert FirstSuccess(script) == Some(0);
    DeliverAllReliable(l.queue, lp, TokenMode(l.useHttpPut, l.useDataHub), l.creds.token,
                       HeaderOf(l), script[1..]);
    RunDeliversInOrder(l, script);
    assert l.queue[..|l.queue|] == l.queue;
  }

  /** FIFO delivery: the frames on the wire are those of the oldest queued lines, in
      queue order, each framed with the prefix computed once for the run; the run
      leaves the host-name properties as the prefix step resolved them. */
  lemma RunDeliversInOrder(l: LoggerState, script: seq<bool>)
    ensures var r := Run(l, script);
            var lp := BuildPrefix(l.useHostName, l.hostName, l.logID);
            && r.delivered <= |l.queue|
            && Frames(r.wire) == FramesOf(l.queue[..r.delivered], lp, TokenMode(l.useHttpPut, l.useDataHub),
                                          l.creds.token)
            && (FirstSuccess(script).Some? ==> r.logger.useHostName == lp.host.useHostName
                                                 && r.logger.hostName == lp.host.hostName)
  {
    var lp := BuildPrefix(l.useHostName, l.hostName, l.logID);
    match FirstSuccess(script)
    case None =>
      assert l.queue[..0] == [];
    case Some(k) =>
      var d := DeliverAll(l.queue, lp, TokenMode(l.useHttpPut, l.useDataHub), l.creds.token,
                          HeaderOf(l), script[k + 1..]);
      DeliverAllFrames(l.queue, lp, TokenMode(l.useHttpPut, l.useDataHub), l.creds.token,
                       HeaderOf(l), script[k + 1..]);
      FramesAppend(OpenWrites(HeaderOf(l)), d.wire);
      if HeaderOf(l).Some? {
        assert [HeaderWrite(HeaderOf(l).value)][1..] == [];
      }
  }

  /** The receiving side of a run: every frame on the wire parses back, against the
      run's lead, to the normalised queued line it came from. */
  lemma RunFramesParse(l: LoggerState, script: seq<bool>)
    ensures var r := Run(l, script);
            var lp := BuildPrefix(l.useHostName, l.hostName, l.logID);
            var lead := Lead(lp.prefix, lp.isPrefixEmpty, TokenMode(l.useHttpPut, l.useDataHub), l.creds.token);
            |Frames(r.wire)| == r.delivered
            && forall i :: 0 <= i < r.delivered ==> ParseFrame(Frames(r.wire)[i], lead) == Some(Normalise(l.queue[i]))
  {
    var r := Run(l, script);
    var lp := BuildPrefix(l.useHostName, l.hostName, l.logID);
    RunDeliversInOrder(l, script);
    forall i | 0 <= i < r.delivered
      ensures ParseFrame(Frames(r.wire)[i], Lead(lp.prefix, lp.isPrefixEmpty, TokenMode(l.useHttpPut, l.useDataHub), l.creds.token))
              == Some(Normalise(l.queue[i]))
    {
      FrameRoundTrip(lp.prefix, lp.isPrefixEmpty, TokenMode(l.useHttpPut, l.useDataHub), l.creds.token, l.queue[i]);
    }
  }

  /** End to end: lines offered to a logger whose worker they started (or found
      running) and then delivered by that worker arrive as the frames of the newest
      `QueueSize` trimmed lines, oldest first. */
  lemma OfferedLinesDeliveredInOrder(l: LoggerState, config: Credentials.Config, lines: seq<string>,
                                     script: seq<bool>)
    requires Valid(l)
    ensures var filled := AddLines(l, config, lines);
            var r := Run(filled, script);
            var lp := BuildPrefix(filled.useHostName, filled.hostName, filled.logID);
            var offered := LastN(l.queue + TrimLines(lines), Constants.QueueSize);
            filled.isRunning ==>
              && r.delivered <= |offered|
              && Frames(r.wire) == FramesOf(offered[..r.delivered], lp, TokenMode(filled.useHttpPut, filled.useDataHub),
                                            filled.creds.token)
  {
    AddLinesKeepsNewest(l, config, lines);
    RunDeliversInOrder(AddLines(l, config, lines), script);
  }

  /** A configured account key padded with white space passes validation, because
      `Guid.TryParse` trims it, but is adopted as it stands: its blank and its line
      feed end up inside the request line. */
  lemma PaddedAccountKeyInRequestLine(c: Credentials.Creds, config: Credentials.Config, g: string)
    requires IsValidGuid(g) && !Credentials.Usable(true, c)
    requires Credentials.AccountKeySetting(config) == Some(" " + g + "\n")
    requires !Text.IsNullOrEmpty(Credentials.LocationSetting(config))
    ensures var r := Credentials.LoadCredentials(true, c, config);
            var h := PutHeader(r.creds.accountKey, r.creds.location);
            && r.ok && r.creds.accountKey == Some(" " + g + "\n")
            && h[|PutHead|] == ' ' && h[|PutHead| + |g| + 1] == '\n'
  {
    var key := " " + g + "\n";
    PaddedKeyAdopted(c, config, g);
    var r := Credentials.LoadCredentials(true, c, config);
    KeyCharsInHeader(key, r.creds.location, 0);
    KeyCharsInHeader(key, r.creds.location, |g| + 1);
  }

  lemma PaddedKeyAdopted(c: Credentials.Creds, config: Credentials.Config, g: string)
    requires IsValidGuid(g) && !Credentials.Usable(true, c)
    requires Credentials.AccountKeySetting(config) == Some(" " + g + "\n")
    requires !Text.IsNullOrEmpty(Credentials.LocationSetting(config))
    ensures var r := Credentials.LoadCredentials(true, c, config);
            r.ok && r.creds.accountKey == Some(" " + g + "\n")
  {
    PaddedGuidAccepted(g);
  }

  /** The `i`-th character of the account key is the `|PutHead| + i`-th of the request line. */
  lemma KeyCharsInHeader(key: string, location: Option<string>, i: nat)
    requires i < |key|
    ensures var h := PutHeader(Some(key), location);
            |PutHead| + i < |h| && h[|PutHead| + i] == key[i]
  {
    var rest := PutHosts + Text.OrEmpty(location) + PutTail;
    assert PutHeader(Some(key), location) == (PutHead + key) + rest;
  }
}

=== FILE: wrappers.dfy ===
/** Option stands in for C#'s nullable references: `None` is `null`. */
module Wrappers {

  datatype Option<+T> = None | Some(value: T)
}
